=== FILE: README.md ===
# Chat client core, modelled in Dafny

This project models the client logic of a browser chat front end that talks to
a model API through a relay. It covers the data-shaping and state-update code
in `public/app.js`:

- sorting picked files into image, pdf, text or binary, and turning them into
  attachments;
- the admission rules for pending chat attachments (20 MB per file) and for
  project files (at most ten, 5 MB per file), with removing and clearing;
- the retention pass run before every save, which drops the data URLs of
  attachment records on all but the ten most recent messages of each
  conversation;
- the request the client sends: an optional system entry, the project file
  context pair, then the stored history;
- the user message a send stores, and the streamed-reply reader: chunks are cut
  into lines at `'\n'`, the unfinished piece is carried over, every `data: `
  line other than `[DONE]` is parsed and its delta appended;
- the commit rule that decides whether the reply becomes an assistant message;
- the conversation containers: the global list or the selected project's list,
  creating, deleting, deleting a project, and a whole send.

Modules, one per file: `Wrappers` (Option, JavaScript truthiness), `Strings`
(`startsWith`, ASCII `toLowerCase`, `split`, `join`, JavaScript `trim`),
`Model` (the records), `Classify`, `Admission`, `Retention`, `Composer`,
`Stream` and `Containers`.

The browser's foreign APIs become parameters:
- reading a file (`FileReader`, `URL.createObjectURL`, `generateId`) is a
  `Reader`, a function from a file to an optional `FileData`, where None is a
  read failure;
- parsing one event payload (`JSON.parse` and `choices[0].delta.content`) is a
  `Parser`, a function from a payload to an optional delta;
- `formatFileSize` is a `sizeLabel` function;
- `confirm()` is a boolean;
- `generateId`/`Date.now` for a new conversation are the `newId` and `now`
  arguments;
- the network response is a `Response` value: not ok, or the decoded chunks
  together with how the stream ended (finished, aborted, failed).

The JavaScript code mutates shared records. In particular, the retention loop
assigns `dataUrl = null` on the very objects the state holds. The model is
functional, so every save returns the retained container list.

## Model

| member | source | states |
|---|---|---|
| Strings.AsciiLower | public/app.js:391 | lower-casing keeps the length and maps every character through the ASCII case map |
| Strings.Split | public/app.js:1155 | splitting always yields at least one piece and no piece contains the separator |
| Strings.SplitJoin | public/app.js:1155 | joining the pieces of a split with the separator gives back the original text |
| Strings.JoinSplit | public/app.js:1155 | splitting a join of separator-free pieces gives back the pieces |
| Strings.SplitAround | public/app.js:1155 | splitting `a + sep + b` is the pieces of `a` followed by the pieces of `b` |
| Strings.SplitNoSeparator | public/app.js:1155 | a text without the separator splits into itself alone |
| Strings.SplitTerminated | public/app.js:1155-1156 | splitting terminated lines plus an unterminated tail gives the lines, then the tail |
| Strings.JoinTerminatedAppend | public/app.js:1151-1157 | terminated lines of a concatenation are the concatenation of terminated lines |
| Strings.JoinTerminatedEnds | public/app.js:1155 | a non-empty run of terminated lines ends with the separator |
| Strings.JoinLast | public/app.js:1155-1156 | a join is the terminated leading pieces followed by the last piece |
| Strings.LastPiece | public/app.js:391 | the last piece is a separator-free suffix, preceded by the separator unless it is the whole text |
| Strings.LastPieceAfterSeparator | public/app.js:1156 | after the last separator, the last piece is exactly the separator-free tail |
| Strings.SplitLower | public/app.js:391 | for a separator that is not a letter, lower-casing commutes with splitting, piece by piece |
| Strings.LastPieceLower | public/app.js:391 | for a non-letter separator, the last piece of the lower-cased name is the lower-cased last piece |
| Strings.TrimStart | public/app.js:1159 | the result is a suffix that is empty or starts with a non-whitespace character |
| Strings.TrimStartDropsWhitespace | public/app.js:1159 | every character dropped at the front is JavaScript whitespace |
| Strings.TrimEnd | public/app.js:1159 | the result is a prefix that is empty or ends with a non-whitespace character |
| Strings.TrimEndDropsWhitespace | public/app.js:1159 | every character dropped at the back is JavaScript whitespace |
| Strings.TrimSlice | public/app.js:1056 | the trimmed text is one contiguous slice of the input |
| Strings.TrimDropsWhitespace | public/app.js:1056 | everything outside that slice is whitespace |
| Strings.TrimmedEnds | public/app.js:1056 | the trimmed text is empty or neither starts nor ends with whitespace |
| Classify.Extension | public/app.js:391 | the extension is the lower-cased text after the last dot, and contains no dot |
| Classify.ExtensionOf | public/app.js:391 | the extension of `stem.ext` is the lower-cased `ext`, whatever the stem |
| Classify.DotlessNameIsExtension | public/app.js:391 | a name without a dot is its own extension, lower-cased |
| Classify.Categorize | public/app.js:390-396 | each category holds exactly when its test holds and every earlier test fails, so image beats pdf beats text beats binary |
| Classify.CategoryIgnoresStem | public/app.js:391 | only the part after the last dot counts: the stem never changes the category |
| Classify.CategoryIgnoresCase | public/app.js:391 | the case of the name never changes the category |
| Classify.ImageNameBeatsPdfType | public/app.js:392-393 | an image extension gives image whatever the MIME type |
| Classify.ImageTypeBeatsTextName | public/app.js:392-394 | for any stem, any text extension and any `image/` MIME type, the text test holds yet the file is an image |
| Classify.PdfNameBeatsTextType | public/app.js:393-394 | a pdf extension gives pdf under a non-image MIME type, even a `text/` one |
| Classify.ProcessFile | public/app.js:416-439 | the attachment keeps name, size and type, has the file's category, text content exactly for text files, a data URL otherwise and a preview only for images |
| Model.IndexBy | public/app.js:458 | the position of the first element with a given identifier, or -1 exactly when none has it; every lookup by identifier is built on it |
| Model.Filter | public/app.js:677 | the filter keeps exactly the elements the predicate accepts, and never more elements than the input |
| Model.FilterAppend | public/app.js:838-842 | filtering keeps order: the filter of a concatenation is the concatenation of the filters |
| Model.FilterAll | public/app.js:838-842 | a filter that accepts every element keeps the list unchanged |
| Model.FilterShrinks | public/app.js:677 | a filter that rejects some element yields a shorter list |
| Admission.AdmitOne | public/app.js:443-452 | the loop body shared by both admission loops skips an oversized or unreadable file and otherwise yields its processed attachment |
| Admission.Admit | public/app.js:443-452 | one file is admitted exactly when it is within the limit and reads successfully, and then as its processed attachment |
| Admission.Admitted | public/app.js:441-453 | admitted attachments are well-formed, within 20 MB, and no more than the files offered |
| Admission.AddAttachments | public/app.js:441-455 | the loop appends the admitted attachments to the pending list, which keeps its earlier entries |
| Admission.AdmitStep | public/app.js:442-449 | one pass of the attachment loop extends the admitted prefix by the next file's outcome |
| Admission.AdmittedAppend | public/app.js:442 | admitting two batches in turn admits their concatenation |
| Admission.AttachmentLimitBoundary | public/app.js:443 | a file of exactly 20 MB is admitted and one byte more is not |
| Admission.AllAdmitted | public/app.js:442-449 | when every file fits and reads, every file is admitted, in input order |
| Admission.ProjectAdmitted | public/app.js:577-593 | pending project files are kept as a prefix, the list never grows past ten, a full list admits nothing more, and new files are within 5 MB |
| Admission.ProjectFileSkipped | public/app.js:583-592 | while the list has room, an oversized or unreadable file is skipped and the loop goes on with the next file as if it had not been offered |
| Admission.AddProjectFiles | public/app.js:577-595 | the loop, with its break at ten, computes the same list |
| Admission.ProjectFilesStopAtLimit | public/app.js:579-581 | once ten files are pending, later files are not examined |
| Admission.ProjectFilesFill | public/app.js:577-593 | when every file fits and reads, the list fills up to ten in input order |
| Admission.FindIndex | public/app.js:458 | the index of the first attachment with the identifier, or -1 exactly when there is none |
| Admission.RemoveAttachment | public/app.js:457-465 | an absent identifier changes nothing; otherwise the entry at the first matching position goes, the entries before it stay in place, the later ones move up by one in order, and exactly that entry's truthy preview is released |
| Admission.SpliceKeepsOthers | public/app.js:462 | removing position `k` keeps the entries before `k` in place and moves every later entry up by one, so every other entry stays |
| Admission.RemoveOnlyFirstMatch | public/app.js:458-462 | with two entries of one identifier only the first is removed and its preview released |
| Admission.ClearAttachments | public/app.js:467-473 | the list becomes empty and exactly the truthy previews are released |
| Admission.RemoveHeadsIsClear | public/app.js:457-473 | removing the first entry, then clearing, releases what clearing at once releases |
| Retention.RetainMessages | public/app.js:852-859 | no message is added or lost; every message older than the last ten loses all its data URLs; the last ten are untouched; role, content, display text and names, sizes and categories never change |
| Retention.RetentionLoop | public/app.js:854-858 | the in-place loop over message indexes computes the pass |
| Retention.SaveConversationsPass | public/app.js:852-859 | the save loops over all global conversations compute the pass for each |
| Retention.SaveProjectsPass | public/app.js:524-533 | the save loops over all projects compute the pass for each project's conversations |
| Retention.RetainIdempotent | public/app.js:852-859 | running the pass twice is running it once |
| Retention.RetainConversationIdempotent | public/app.js:853-859 | saving a saved conversation changes nothing |
| Retention.RetainProjectIdempotent | public/app.js:524-533 | saving a saved project changes nothing |
| Retention.StripIdempotent | public/app.js:529 | nulling the data URLs of a message twice is nulling them once |
| Retention.RetainThenAppend | public/app.js:1107-1109 | saving, appending and saving again equals appending and saving once |
| Retention.ShortConversationUntouched | public/app.js:528 | a conversation of at most ten messages is left exactly as it is |
| Retention.ContentImageSurvives | public/app.js:1087 | an image part in a message's content survives the pass, however old the message |
| Retention.RetainedMembers | public/app.js:842-843 | every conversation of a saved list is in the retained list, and retention brings in no identifier |
| Retention.RetainKeepsIds | public/app.js:853-858 | the pass keeps each conversation's identifier, position and message count |
| Composer.TextsOf | public/app.js:945 | every text taken is the text of a text part, and the text of every text part is taken |
| Composer.TextsOfAppend | public/app.js:945 | taking texts keeps part order: the texts of a concatenation are the texts of each piece, in order |
| Composer.ExtractText | public/app.js:942-948 | a plain content is its own text, no text parts show as empty, and splitting the shown text at newlines gives back the text parts when they hold no newline |
| Composer.ImagePartsInvisible | public/app.js:945 | image parts contribute nothing to the extracted text |
| Composer.SystemContent | public/app.js:1007-1014 | empty exactly when both inputs are; starts with the instructions, ends with the prompt, and holds the blank-line separator exactly when both are non-empty |
| Composer.FileParts | public/app.js:1027-1043 | a text file with text gives exactly its fenced block; any other file with a data URL gives exactly its label and an image part carrying that URL; a file with neither gives nothing |
| Composer.FilesParts | public/app.js:1027-1043 | at most two parts per file, and every image part carries one of the files' data URLs |
| Composer.FilesPartsSingle | public/app.js:1027-1039 | a single project file contributes exactly its own parts |
| Composer.FilesPartsAppend | public/app.js:1027 | the parts of two file lists are the parts of each, in order |
| Composer.ProjectContext | public/app.js:1021-1044 | the context is the introduction text followed by the files' parts |
| Composer.Preamble | public/app.js:1002-1045 | a system entry first exactly when the system content is non-empty, then the file context pair exactly when the project has files, and no later system entry |
| Composer.History | public/app.js:1047-1049 | one entry per stored message, with role and content unchanged, in order |
| Composer.BuildApiMessages | public/app.js:1002-1052 | the request length is the preamble length plus the number of stored messages |
| Composer.RequestHead | public/app.js:1002-1045 | the request begins with the optional system entry, then the file context pair exactly when the project has files |
| Composer.RequestTail | public/app.js:1047-1051 | after the head, every stored message appears in order with role and content unchanged |
| Composer.TailAfter | public/app.js:1047-1051 | counted from the end of a request, the last entries are the stored messages in order |
| Composer.HistoryAfter | public/app.js:1047-1049 | whatever precedes it, the history part of a request lists the stored messages in order |
| Composer.RequestEndsWithLast | public/app.js:1047-1051 | the request ends with the conversation's last stored message |
| Composer.NoProjectRequest | public/app.js:1007-1017 | without a project the request is the global prompt as a system entry, when set, followed by every stored message in order with role and content unchanged |
| Composer.ExampleRequest | public/app.js:1002-1052 | instructions "X", one text file, prompt "Y" and one message "hi" give system, context, acknowledgement, "hi" |
| Composer.TextFileParts | public/app.js:1077-1081 | only text parts, and one fenced part for every text attachment |
| Composer.MediaParts | public/app.js:1085-1091 | an image part for every image or pdf attachment and a size note for every binary one |
| Composer.TextFilePartsSingle | public/app.js:1077-1081 | a text attachment contributes exactly its fenced block to the text-file pass, any other attachment nothing |
| Composer.MediaPartsSingle | public/app.js:1085-1091 | an image or pdf contributes exactly its data URL, a binary file exactly its size note, a text file nothing |
| Composer.TextFilePartsAppend | public/app.js:1077-1081 | the fenced text parts keep attachment order: those of a concatenation are those of each piece, in order |
| Composer.MediaPartsAppend | public/app.js:1085-1091 | the media parts keep attachment order in the same way |
| Composer.UserMessage | public/app.js:1073-1106 | the stored message is a user message showing the trimmed text, with plain content exactly when nothing is attached |
| Composer.UserMessageContents | public/app.js:1073-1106 | plain text without attachments; otherwise one metadata record per attachment keeping a data URL only for images, the typed text when non-empty, an image part per image or pdf, a note per binary file and a fenced part per text file |
| Composer.UserMessageOrder | public/app.js:1075-1092 | the parts come in three runs: the fenced text files first, then the typed text when non-empty, then the media parts |
| Stream.ReadStream | public/app.js:1151-1171 | the reply read is the deltas of the complete lines of all chunks, the buffer is the unfinished last piece, and the chunks equal the complete lines, each terminated, plus the buffer |
| Stream.LineDelta | public/app.js:1157-1168 | a line that is not a `data: ` line adds nothing, and a line adds text only when its trimmed payload is not the sentinel and parses to exactly that text |
| Stream.HandleLines | public/app.js:1157-1170 | the inner loop appends the deltas of the chunk's complete lines, in order |
| Stream.HandleLine | public/app.js:1158-1168 | the loop body for one line appends exactly that line's delta |
| Stream.ChunkStep | public/app.js:1154-1156 | one outer pass keeps "text received = lines handled, terminated, plus buffer" |
| Stream.ReadStreamEnd | public/app.js:1151-1156 | from that invariant, the handled lines are the complete lines and the buffer is the last piece |
| Stream.DeltasAppend | public/app.js:1157 | the reply of a concatenation of lines is the concatenation of their replies |
| Stream.UnfinishedLineIgnored | public/app.js:1156 | a final piece without a newline adds nothing to the reply |
| Stream.DeltasPair | public/app.js:1157-1170 | two lines add their deltas in order |
| Stream.DataLineDelta | public/app.js:1158-1165 | for any payload, a `data: ` line adds nothing when the trimmed payload is the sentinel, and otherwise the delta parsed from the trimmed payload, or nothing when it does not parse |
| Stream.CarriageReturnIgnored | public/app.js:1159 | a carriage return left at the end of a line by CRLF framing does not change what the line adds |
| Stream.SentinelLineDelta | public/app.js:1158-1160 | the sentinel line and the blank line after it add nothing |
| Stream.SentinelAddsNothing | public/app.js:1160 | the closing `[DONE]` frame leaves the reply as it was |
| Stream.CancelledMidLine | public/app.js:1151-1171 | two complete data lines followed by a partial one give the two deltas and drop the partial one |
| Stream.CommittedReply | public/app.js:1142-1190 | a non-ok response commits nothing; a finished stream commits the reply, even an empty one; an abort commits only a non-empty reply; another error commits nothing |
| Stream.Commit | public/app.js:1180-1187 | the stored messages stay as a prefix, and one assistant message holding the reply is appended exactly when a reply is committed |
| Stream.EmptyReplies | public/app.js:1180-1187 | an empty finished stream appends an empty assistant message and an empty aborted one appends nothing |
| Containers.ProjectIndex | public/app.js:363-365 | the position of the first project with the identifier, or -1 exactly when none has it |
| Containers.ConvIndex | public/app.js:812-815 | the position of the first conversation with the identifier, or -1 exactly when none has it |
| Containers.ProjectIndexIds | public/app.js:363-365 | the lookup depends only on the identifiers, so saving a list keeps lookups |
| Containers.ConvIndexIds | public/app.js:812-815 | the same for conversations |
| Containers.Active | public/app.js:355-369 | the global list exactly when no project is selected; a selected project that does not exist is reported as missing; otherwise the position of the first project with the selected identifier |
| Containers.CurrentProject | public/app.js:363-369 | a project is found exactly when one is selected and a project with that identifier exists, and then it is the first such project |
| Containers.ActiveConversations | public/app.js:355-361 | the global list when no project is selected, the first selected project's conversations when it exists, and an empty list when it does not |
| Containers.CurrentConv | public/app.js:812-815 | the first conversation of the active list with the current identifier is the one found; when none is found, no conversation of the active list has that identifier |
| Containers.ValidSelectionHasContainer | public/app.js:355-361 | when the selected project exists, the active list is not missing |
| Containers.StoreActive | public/app.js:371-377 | storing writes the retained list into the active container; a project save also retains every other project, leaving its conversations otherwise as they were, and leaves the global list alone; a missing project changes nothing |
| Containers.NewChat | public/app.js:778-785 | the current conversation is cleared and so are the pending attachments; nothing else changes |
| Containers.Title | public/app.js:790 | the title is the first `min(80, length)` characters of the first message, so the whole message when it is short enough |
| Containers.CreateConversation | public/app.js:787-810 | the new empty conversation goes first in the active list, which is saved, and becomes current; with a missing project only the current identifier changes |
| Containers.CreateConversationFrame | public/app.js:796-807 | a global creation leaves the projects alone; a creation in a project leaves the global list alone, keeps the project's name, instructions and files, and only retains the other projects; no field besides the two lists and the current identifier changes |
| Containers.CreatedIsCurrent | public/app.js:787-815 | the new conversation is then found as the current one, except under a missing project |
| Containers.DeleteConversation | public/app.js:832-850 | the active list becomes the retained filter of the other conversations, in order; the identifier is gone from it; a deleted current conversation starts a new chat and otherwise the current one and the pending attachments stay |
| Containers.DeleteConversationFrame | public/app.js:832-847 | only the active container is written: the global deletion leaves projects alone, a project deletion leaves the global list alone, keeps the active project's name, instructions and files, and only retains the other projects, and settings and the editor are untouched |
| Containers.DeleteCurrentProject | public/app.js:666-689 | without an open editor, with an unknown project or without confirmation nothing changes; otherwise the projects become the retained filter of the other projects, the editor is closed, a new chat starts and the selection is cleared only if it was that project; settings never change |
| Containers.RetainedProjectsLack | public/app.js:524-533 | saving the projects brings in no project identifier the list did not have |
| Containers.DeleteKeepsSelectionValid | public/app.js:666-689 | deleting a project never leaves the selection on a project that does not exist |
| Containers.ReplaceCurrent | public/app.js:1107-1109 | the updated current conversation is stored, retained, and found again as the current one at the same position |
| Containers.StoreCurrent | public/app.js:1107-1109 | saving the active list with a conversation put at the current position finds it, retained, as the current conversation at that same position |
| Containers.StoreKeepsOthers | public/app.js:371-377 | saving the active list with one position replaced keeps the list's length, only retains every other conversation on it, keeps the active project's name, instructions and files, and leaves the other container untouched or only retained |
| Containers.ReplaceKeepsOthers | public/app.js:1107-1109 | replacing the current conversation only retains the other conversations of its list and the other container, and keeps the active project's name, instructions and files |
| Containers.OthersRetainedTrans | public/app.js:371-377 | two saves around the same position amount to one: retaining twice is retaining once |
| Containers.EnsureConversation | public/app.js:1066-1069 | an existing current conversation is kept; otherwise a new one becomes current; pending attachments are untouched |
| Containers.EnsureStartsEmpty | public/app.js:1066-1071 | with no current conversation, globally or in a project that exists, the created conversation is current and has no messages |
| Containers.Ask | public/app.js:1107-1114 | the user message is appended last to the current conversation, which takes the selected model; the list is saved and the pending attachments cleared |
| Containers.Answer | public/app.js:1180-1187 | nothing changes without a committed reply; otherwise the assistant message is appended and saved, and no field besides the two lists changes |
| Containers.AskKeepsOthers | public/app.js:1107-1114 | asking writes only the current conversation, which keeps its position; the rest of its list and the other container are only retained, the active project keeps its name, instructions and files, and only the lists and the pending attachments change |
| Containers.AnswerKeepsOthers | public/app.js:1180-1187 | a committed answer writes only the current conversation in the same way |
| Containers.CommitAfterRetain | public/app.js:1109-1181 | committing to an already retained history and retaining again equals retaining once |
| Containers.RequestFor | public/app.js:1117 | the request built after the append ends with the stored user message |
| Containers.Turn | public/app.js:1107-1190 | a turn makes a request ending with the user message, leaves no pending attachments and keeps the current conversation |
| Containers.TurnKeepsOthers | public/app.js:1107-1190 | a turn writes only the current conversation, at the same position; every other conversation of its list and the other container are only retained, the active project keeps its name, instructions and files, and only the lists and the pending attachments change |
| Containers.TurnStores | public/app.js:1107-1190 | after a turn the current conversation holds its old messages, the user message and any committed reply, retained |
| Containers.SendMessage | public/app.js:1055-1200 | an empty send, a send while streaming, or one without an API key changes nothing and sends nothing; a request that is sent leaves no pending attachments |
| Containers.SendEndsWithUserMessage | public/app.js:1073-1117 | a request that is sent ends with the user message built from the trimmed input and the attachments pending before the send |
| Containers.SendToExisting | public/app.js:1055-1190 | a send to the current conversation keeps its identity and position, stores the user message and any committed reply, only retains every other conversation and the other container, and keeps the active project's name, instructions and files |
| Containers.SendStartsConversation | public/app.js:1066-1190 | the first send with no current conversation, globally or in a project that exists, creates the current conversation holding the user message and any committed reply |
| Containers.FirstTurnUntouched | public/app.js:1109 | the first turn of a conversation is too short for retention to change it |
| Containers.SendWithoutProject | public/app.js:1067-1107 | with the selected project gone no request is made and the pending attachments stay |

## Left out

- `server.js`, the relay between client and model API, is pure HTTP and stream piping. It is not part of this model.
- DOM rendering, event wiring, modals, focus and scroll handling, and the streaming indicator are not modelled.
- `localStorage` and `JSON.stringify` persistence are left out. Only the retention pass that precedes each write is modelled. The "storage full" alert is not.
- `FileReader`, `URL.createObjectURL` and `URL.revokeObjectURL` are foreign browser APIs. File contents are given as `FileData` through the `Reader` parameter. Revoking is modelled only as the list of previews released.
- `TextDecoder` is not modelled. Chunks are given as already decoded strings.
- `JSON.parse` of event payloads is the `Parser` parameter. Its catch of malformed chunks is a None result.
- `formatFileSize` uses floating-point `toFixed`, so it is the `sizeLabel` parameter.
- `generateId`, `Date.now` and `confirm()` are parameters. The elapsed-time label is not modelled.
- `marked` and `DOMPurify` rendering and `escapeHtml` are not modelled.
- The `fetchModels` sort and the model selector are not modelled.
- `AbortController` timing and the asynchronous interleaving are left out. Cancellation is only the outcome of a `Response`.
- Strings.AsciiLower: `toLowerCase` is modelled on ASCII letters only, because non-ASCII case mapping needs Unicode tables. Extensions are compared with ASCII sets, so the category is unaffected except for names with non-ASCII capitals.
- Containers.Title: `slice(0, 80)` counts UTF-16 code units, while the model counts Dafny characters, so for text outside the Basic Multilingual Plane the model's title can hold more characters than the source's.
- `generateId` freshness is not modelled. Attachment identifiers come from the `Reader`, and no contract relies on them being distinct.
- `loadConversation`, the project selector's change handler, `saveProject`, `openEditProjectModal` and `renderProjectFileList`'s removal of a project file are not modelled. They are editor plumbing outside the container operations above.
- `closeProjectModal` is modelled only as the part of `DeleteCurrentProject` that clears the editing identifier and the pending project files.
- `extractTextFromContent` returns `''` for content that is neither a string nor an array. The model's content type has only those two shapes, so that branch cannot arise.
- The error text shown for a failed send is not modelled. Only the fact that no reply is committed is.

=== FILE: admission.dfy ===
/** Admission of picked files into the two pending lists: chat attachments
    (at most 20 MB each) and project files (at most 5 MB each, at most ten in
    all), and removal of pending chat attachments. */
module Admission {
  import opened Wrappers
  import opened Model
  import opened Classify

  const MaxAttachmentSize: nat := 20 * 1024 * 1024
  const MaxProjectFileSize: nat := 5 * 1024 * 1024
  const MaxProjectFiles: nat := 10

  /** How reading one file through the browser turned out: None when the
      reader failed, which the client logs and skips. */
  type Reader = FileInput -> Option<FileData>

  /** What one file contributes to a pending list: nothing when it is over
      `limit` or cannot be read, otherwise its processed attachment. */
  function Admit(f: FileInput, read: Reader, limit: nat): (r: seq<Attachment>)
    ensures |r| <= 1
    ensures |r| == 1 <==> f.size <= limit && read(f).Some?
    ensures |r| == 1 ==> r[0] == ProcessFile(f, read(f).value)
  {
    if f.size > limit then []
    else match read(f)
      case None => []
      case Some(d) => [ProcessFile(f, d)]
  }

  /** Reference definition of the chat attachment loop: every file is examined,
      in order. */
  function Admitted(files: seq<FileInput>, read: Reader): (r: seq<Attachment>)
    ensures |r| <= |files|
    ensures forall j :: 0 <= j < |r| ==> r[j].size <= MaxAttachmentSize && WellFormed(r[j])
    decreases |files|
  {
    if |files| == 0 then []
    else
      var init := Admitted(files[..|files| - 1], read);
      var last := files[|files| - 1];
      var r := init + Admit(last, read, MaxAttachmentSize);
      assert forall j :: 0 <= j < |init| ==> r[j] == init[j];
      r
  }

  /** The chat attachment loop: oversized and unreadable files are skipped,
      the others are appended to the end of the pending list in input order. */
  method AddAttachments(pending: seq<Attachment>, files: seq<FileInput>, read: Reader) returns (r: seq<Attachment>)
    ensures r == pending + Admitted(files, read)
    ensures |r| <= |pending| + |files|
    ensures forall j :: |pending| <= j < |r| ==> r[j].size <= MaxAttachmentSize
  {
    r := pending;
    var i := 0;
    while i < |files|
      invariant 0 <= i <= |files|
      invariant r == pending + Admitted(files[..i], read)
    {
      var f := files[i];
      var a := AdmitOne(f, read, MaxAttachmentSize);
      AdmitStep(pending, files, i, read, r, r + a);
      r := r + a;
      i := i + 1;
    }
    assert files[..i] == files;
  }

  /** The body shared by both loops: a file over `limit` is skipped with an
      alert, a file the reader fails on is skipped with a log line, any other
      file is processed. */
  method AdmitOne(f: FileInput, read: Reader, limit: nat) returns (a: seq<Attachment>)
    ensures a == Admit(f, read, limit)
  {
    a := [];
    if f.size > limit {
      return;
    }
    var d := read(f);
    if d.Some? {
      a := [ProcessFile(f, d.value)];
    }
  }

  /** One pass of the attachment loop extends the admitted prefix by one file. */
  lemma AdmitStep(pending: seq<Attachment>, files: seq<FileInput>, i: nat, read: Reader, prev: seq<Attachment>, r: seq<Attachment>)
    requires i < |files|
    requires prev == pending + Admitted(files[..i], read)
    requires r == prev + Admit(files[i], read, MaxAttachmentSize)
    ensures r == pending + Admitted(files[..i + 1], read)
  {
    assert files[..i + 1][..i] == files[..i];
    assert Admitted(files[..i + 1], read) == Admitted(files[..i], read) + Admit(files[i], read, MaxAttachmentSize);
  }

  /** Admitting two batches one after the other is admitting their
      concatenation: the result keeps input order and each file is judged
      on its own. */
  lemma {:induction false} AdmittedAppend(a: seq<FileInput>, b: seq<FileInput>, read: Reader)
    ensures Admitted(a + b, read) == Admitted(a, read) + Admitted(b, read)
    decreases |b|
  {
    if |b| == 0 {
      assert a + b == a;
    } else {
      var b', last := b[..|b| - 1], b[|b| - 1];
      AdmittedAppend(a, b', read);
      assert (a + b)[..|a + b| - 1] == a + b';
      assert (a + b)[|a + b| - 1] == last;
      var tail := Admit(last, read, MaxAttachmentSize);
      assert Admitted(a + b, read) == Admitted(a + b', read) + tail;
      assert Admitted(b, read) == Admitted(b', read) + tail;
      ConcatAssoc(Admitted(a, read), Admitted(b', read), tail);
    }
  }

  /** A file of exactly 20 MB that can be read is admitted; one byte more and
      it is rejected. */
  lemma AttachmentLimitBoundary(f: FileInput, read: Reader)
    requires read(f).Some?
    ensures f.size == MaxAttachmentSize ==> Admitted([f], read) == [ProcessFile(f, read(f).value)]
    ensures f.size == MaxAttachmentSize + 1 ==> Admitted([f], read) == []
  {
    assert [f][..0] == [];
  }

  /** When every file is within the limit and readable, every file is
      admitted, in order. */
  lemma {:induction false} AllAdmitted(files: seq<FileInput>, read: Reader)
    requires forall i :: 0 <= i < |files| ==> files[i].size <= MaxAttachmentSize && read(files[i]).Some?
    ensures |Admitted(files, read)| == |files|
    ensures forall i :: 0 <= i < |files| ==> Admitted(files, read)[i] == ProcessFile(files[i], read(files[i]).value)
    decreases |files|
  {
    if |files| > 0 {
      var init, last := files[..|files| - 1], files[|files| - 1];
      AllAdmitted(init, read);
      var a := ProcessFile(last, read(last).value);
      assert Admit(last, read, MaxAttachmentSize) == [a];
      var r := Admitted(files, read);
      assert r == Admitted(init, read) + [a];
      forall i | 0 <= i < |files| ensures r[i] == ProcessFile(files[i], read(files[i]).value) {
        if i < |init| {
          assert r[i] == Admitted(init, read)[i];
          assert init[i] == files[i];
        } else {
          assert r[i] == a;
        }
      }
    }
  }

  // ----- project files -----

  /** Reference definition of the project file loop: once the pending list
      holds ten files the loop stops and no later file is examined; an
      oversized or unreadable file is skipped and the loop goes on. */
  function ProjectAdmitted(pending: seq<Attachment>, files: seq<FileInput>, read: Reader): (r: seq<Attachment>)
    ensures |r| >= |pending| && forall j :: 0 <= j < |pending| ==> r[j] == pending[j]
    ensures |pending| <= MaxProjectFiles ==> |r| <= MaxProjectFiles
    ensures |pending| >= MaxProjectFiles ==> r == pending
    ensures forall j :: |pending| <= j < |r| ==> r[j].size <= MaxProjectFileSize && WellFormed(r[j])
    decreases |files|
  {
    if |files| == 0 || |pending| >= MaxProjectFiles then pending
    else
      var next := pending + Admit(files[0], read, MaxProjectFileSize);
      ProjectAdmitted(next, files[1..], read)
  }

  /** The project file loop, with the count check made before the size check
      and a `break` when the list is full. */
  method AddProjectFiles(pending: seq<Attachment>, files: seq<FileInput>, read: Reader) returns (r: seq<Attachment>)
    ensures r == ProjectAdmitted(pending, files, read)
    ensures |r| >= |pending| && forall j :: 0 <= j < |pending| ==> r[j] == pending[j]
    ensures |pending| <= MaxProjectFiles ==> |r| <= MaxProjectFiles
  {
    r := pending;
    var i := 0;
    while i < |files|
      invariant 0 <= i <= |files|
      invariant ProjectAdmitted(r, files[i..], read) == ProjectAdmitted(pending, files, read)
    {
      if |r| >= MaxProjectFiles {
        break;
      }
      var f := files[i];
      assert files[i..][1..] == files[i + 1..];
      var a := AdmitOne(f, read, MaxProjectFileSize);
      assert ProjectAdmitted(r, files[i..], read) == ProjectAdmitted(r + a, files[i + 1..], read);
      r := r + a;
      i := i + 1;
    }
  }

  /** An oversized or unreadable file is skipped and the loop moves on:
      the files after it are admitted as if it had not been offered. */
  lemma ProjectFileSkipped(pending: seq<Attachment>, f: FileInput, rest: seq<FileInput>, read: Reader)
    requires |pending| < MaxProjectFiles && (f.size > MaxProjectFileSize || read(f).None?)
    ensures ProjectAdmitted(pending, [f] + rest, read) == ProjectAdmitted(pending, rest, read)
  {
    var files := [f] + rest;
    assert files[0] == f && files[1..] == rest;
    assert Admit(f, read, MaxProjectFileSize) == [];
    assert ProjectAdmitted(pending, files, read) == ProjectAdmitted(pending + [], rest, read);
    assert pending + [] == pending;
  }

  lemma {:induction false} ProjectFilesStopAtLimit(pending: seq<Attachment>, files: seq<FileInput>, more: seq<FileInput>, read: Reader)
    requires |ProjectAdmitted(pending, files, read)| >= MaxProjectFiles
    ensures ProjectAdmitted(pending, files + more, read) == ProjectAdmitted(pending, files, read)
    decreases |files|
  {
    if |files| > 0 && |pending| < MaxProjectFiles {
      var next := pending + Admit(files[0], read, MaxProjectFileSize);
      assert (files + more)[1..] == files[1..] + more;
      ProjectFilesStopAtLimit(next, files[1..], more, read);
    }
  }

  /** When every file fits and is readable, the list is filled up to ten
      files from the front of the input, in input order. */
  lemma {:induction false} ProjectFilesFill(pending: seq<Attachment>, files: seq<FileInput>, read: Reader)
    requires |pending| <= MaxProjectFiles
    requires forall i :: 0 <= i < |files| ==> files[i].size <= MaxProjectFileSize && read(files[i]).Some?
    ensures var r := ProjectAdmitted(pending, files, read);
            && |r| == (if |pending| + |files| <= MaxProjectFiles then |pending| + |files| else MaxProjectFiles)
            && forall i :: |pending| <= i < |r| ==>
                 r[i] == ProcessFile(files[i - |pending|], read(files[i - |pending|]).value)
    decreases |files|
  {
    if |files| > 0 && |pending| < MaxProjectFiles {
      var p0 := ProcessFile(files[0], read(files[0]).value);
      var next, tail := pending + [p0], files[1..];
      var r := ProjectAdmitted(pending, files, read);
      assert r == ProjectAdmitted(next, tail, read) by {
        assert Admit(files[0], read, MaxProjectFileSize) == [p0];
      }
      ProjectFilesFill(next, tail, read);
      forall i | |pending| <= i < |r| ensures r[i] == ProcessFile(files[i - |pending|], read(files[i - |pending|]).value) {
        if i == |pending| {
          assert r[i] == next[i];
        } else {
          assert tail[i - |next|] == files[i - |pending|];
        }
      }
    }
  }

  // ----- removing pending attachments -----

  /** The pending list after a removal, and the preview handles released. */
  datatype Removal = Removal(rest: seq<Attachment>, revoked: seq<string>)

  /** The preview handles to release for one attachment: its preview, if it has one. */
  function PreviewOf(a: Attachment): seq<string> {
    if Truthy(a.preview) then [a.preview.value] else []
  }

  /** `findIndex`: the position of the first attachment with identifier
      `id`, or -1 when there is none. */
  function FindIndex(pending: seq<Attachment>, id: string): (k: int)
    ensures -1 <= k < |pending|
    ensures k == -1 <==> forall j :: 0 <= j < |pending| ==> pending[j].id != id
    ensures k >= 0 ==> pending[k].id == id && forall j :: 0 <= j < k ==> pending[j].id != id
  {
    IndexBy(pending, (x: Attachment) => x.id, id)
  }

  /** Removes the first pending attachment with identifier `id`, releasing
      its preview; an unknown identifier changes nothing. Attachments with
      other identifiers all stay, in order. */
  function RemoveAttachment(pending: seq<Attachment>, id: string): (r: Removal)
    ensures (forall j :: 0 <= j < |pending| ==> pending[j].id != id) ==> r == Removal(pending, [])
    ensures var k := FindIndex(pending, id);
            k >= 0 ==>
              && |r.rest| == |pending| - 1
              && (forall i :: 0 <= i < k ==> r.rest[i] == pending[i])
              && (forall i :: k <= i < |r.rest| ==> r.rest[i] == pending[i + 1])
              && r.revoked == PreviewOf(pending[k])
    ensures forall j :: 0 <= j < |pending| && pending[j].id != id ==> pending[j] in r.rest
    ensures multiset(r.rest) <= multiset(pending)
  {
    var k := FindIndex(pending, id);
    if k == -1 then Removal(pending, [])
    else
      var rest := pending[..k] + pending[k + 1..];
      SpliceKeepsOthers(pending, k);
      Removal(rest, PreviewOf(pending[k]))
  }

  /** `splice(k, 1)` removes the entry at `k` and keeps all the others, in
      order: the entries before `k` stay in place and the later ones move up
      by one. */
  lemma SpliceKeepsOthers(pending: seq<Attachment>, k: nat)
    requires k < |pending|
    ensures var rest := pending[..k] + pending[k + 1..];
            && |rest| == |pending| - 1
            && (forall i :: 0 <= i < k ==> rest[i] == pending[i])
            && (forall i :: k <= i < |rest| ==> rest[i] == pending[i + 1])
            && (forall j :: 0 <= j < |pending| && j != k ==> pending[j] in rest)
            && multiset(rest) <= multiset(pending)
  {
    var rest := pending[..k] + pending[k + 1..];
    assert pending == pending[..k] + [pending[k]] + pending[k + 1..];
    forall j | 0 <= j < |pending| && j != k ensures pending[j] in rest {
      if j < k { assert rest[j] == pending[j]; } else { assert rest[j - 1] == pending[j]; }
    }
  }

  /** Only the first of two attachments sharing an identifier is removed. */
  lemma RemoveOnlyFirstMatch(a: Attachment, b: Attachment)
    requires a.id == b.id
    ensures RemoveAttachment([a, b], a.id).rest == [b]
    ensures RemoveAttachment([a, b], a.id).revoked == PreviewOf(a)
  {
    assert FindIndex([a, b], a.id) == 0;
  }

  /** Empties the pending list and releases every preview handle, in order. */
  function ClearAttachments(pending: seq<Attachment>): (r: Removal)
    ensures r.rest == []
    ensures |r.revoked| <= |pending|
    ensures forall s :: s in r.revoked <==> exists j :: 0 <= j < |pending| && Truthy(pending[j].preview) && pending[j].preview.value == s
    decreases |pending|
  {
    if |pending| == 0 then Removal([], [])
    else
      var sub := ClearAttachments(pending[1..]);
      var r := Removal([], PreviewOf(pending[0]) + sub.revoked);
      assert forall j :: 1 <= j < |pending| ==> pending[j] == pending[1..][j - 1];
      r
  }

  /** Removing every pending attachment one at a time releases what clearing releases. */
  lemma {:induction false} RemoveHeadsIsClear(pending: seq<Attachment>)
    ensures |pending| > 0 ==>
              var first := RemoveAttachment(pending, pending[0].id);
              && first.rest == pending[1..]
              && first.revoked + ClearAttachments(first.rest).revoked == ClearAttachments(pending).revoked
  {
  }
}

=== FILE: classify.dfy ===
/** Sorting picked files into image, pdf, text or binary, and the shape of the
    attachment built for each kind. */
module Classify {
  import opened Wrappers
  import opened Strings
  import opened Model

  const ImageExtensions: set<string> := {"png", "jpg", "jpeg", "gif", "webp", "svg", "bmp", "ico"}

  const TextExtensions: set<string> := {
    "txt", "md", "csv", "json", "xml", "html", "htm", "css", "js", "ts",
    "jsx", "tsx", "py", "java", "c", "cpp", "h", "hpp", "cs", "rb", "go",
    "rs", "swift", "kt", "php", "pl", "r", "scala", "lua", "sh", "bash",
    "zsh", "bat", "ps1", "sql", "yaml", "yml", "toml", "ini", "cfg",
    "conf", "log", "env", "dockerfile", "makefile", "gitignore",
    "editorconfig", "properties", "vue", "svelte"
  }

  /** The lower-cased text after the last dot of a file name (the whole name
      when it has no dot). */
  function Extension(name: string): (r: string)
    ensures '.' !in r
    ensures |r| <= |name|
    ensures r == AsciiLower(name[|name| - |r|..])
    ensures |r| == |name| || name[|name| - |r| - 1] == '.'
  {
    var piece := LastPiece(name, '.');
    var r := AsciiLower(piece);
    assert '.' !in r by {
      forall k | 0 <= k < |r| ensures r[k] != '.' { assert piece[k] != '.'; }
    }
    r
  }

  predicate ImageTest(f: FileInput) {
    Extension(f.name) in ImageExtensions || StartsWith(f.mime, "image/")
  }

  predicate PdfTest(f: FileInput) {
    Extension(f.name) == "pdf" || f.mime == "application/pdf"
  }

  predicate TextTest(f: FileInput) {
    Extension(f.name) in TextExtensions || StartsWith(f.mime, "text/")
  }

  /** The classifier: the tests are tried in the order image, pdf, text, and
      the first one that holds decides; a file no test accepts is binary. */
  function Categorize(f: FileInput): (r: Category)
    ensures r == Image <==> ImageTest(f)
    ensures r == Pdf <==> !ImageTest(f) && PdfTest(f)
    ensures r == Text <==> !ImageTest(f) && !PdfTest(f) && TextTest(f)
    ensures r == Binary <==> !ImageTest(f) && !PdfTest(f) && !TextTest(f)
  {
    if ImageTest(f) then Image
    else if PdfTest(f) then Pdf
    else if TextTest(f) then Text
    else Binary
  }

  /** The payload rule of a processed attachment: text files carry extracted
      text only, images carry a data URL and a preview handle, pdf and binary
      files carry a data URL only. */
  predicate WellFormed(a: Attachment) {
    match a.category
    case Text => a.textContent.Some? && a.dataUrl.None? && a.preview.None?
    case Image => a.dataUrl.Some? && a.textContent.None? && a.preview.Some?
    case _ => a.dataUrl.Some? && a.textContent.None? && a.preview.None?
  }

  /** The attachment built for a file once the browser has read it. */
  function ProcessFile(f: FileInput, d: FileData): (a: Attachment)
    ensures WellFormed(a)
    ensures a.id == d.id && a.name == f.name && a.size == f.size && a.mime == f.mime
    ensures a.category == Categorize(f)
    ensures a.category == Text ==> a.textContent == Some(d.text)
    ensures a.category != Text ==> a.dataUrl == Some(d.dataUrl)
    ensures a.preview.Some? ==> a.preview == Some(d.preview)
  {
    var base := Attachment(d.id, f.name, f.size, f.mime, Categorize(f), None, None, None);
    match base.category
    case Image => base.(dataUrl := Some(d.dataUrl), preview := Some(d.preview))
    case Text => base.(textContent := Some(d.text))
    case _ => base.(dataUrl := Some(d.dataUrl))
  }

  // ----- properties of the classifier -----

  /** Only the text after the last dot of the name matters: a file renamed
      by putting anything before that dot keeps its category. */
  lemma CategoryIgnoresStem(h: nat, stem: string, ext: string, size: nat, mime: string)
    requires '.' !in ext
    ensures Categorize(FileInput(h, stem + "." + ext, size, mime)) == Categorize(FileInput(h, ext, size, mime))
  {
    LastPieceAfterSeparator(stem, ext, '.');
    SplitNoSeparator(ext, '.');
  }

  /** Extensions are compared without regard to ASCII case. */
  lemma CategoryIgnoresCase(h: nat, name: string, size: nat, mime: string)
    ensures Categorize(FileInput(h, AsciiLower(name), size, mime)) == Categorize(FileInput(h, name, size, mime))
  {
    LastPieceLower(name, '.');
    var p := LastPiece(name, '.');
    assert AsciiLower(AsciiLower(p)) == AsciiLower(p);
  }

  /** The extension of `stem.ext` is the lower-cased `ext`. */
  lemma ExtensionOf(stem: string, ext: string)
    requires '.' !in ext
    ensures Extension(stem + "." + ext) == AsciiLower(ext)
  {
    LastPieceAfterSeparator(stem, ext, '.');
  }

  /** An image extension wins whatever the MIME type says, a pdf MIME type included. */
  lemma ImageNameBeatsPdfType(h: nat, stem: string, ext: string, size: nat, mime: string)
    requires '.' !in ext && AsciiLower(ext) in ImageExtensions
    ensures Categorize(FileInput(h, stem + "." + ext, size, mime)) == Image
  {
    ExtensionOf(stem, ext);
  }

  /** An image MIME type wins over a text extension: the text test holds,
      yet the file is an image. */
  lemma ImageTypeBeatsTextName(h: nat, stem: string, ext: string, size: nat, mime: string)
    requires '.' !in ext && AsciiLower(ext) in TextExtensions && StartsWith(mime, "image/")
    ensures TextTest(FileInput(h, stem + "." + ext, size, mime))
    ensures Categorize(FileInput(h, stem + "." + ext, size, mime)) == Image
  {
    ExtensionOf(stem, ext);
  }

  /** A pdf extension wins over any MIME type that is not an image type,
      a text MIME type included. */
  lemma PdfNameBeatsTextType(h: nat, stem: string, ext: string, size: nat, mime: string)
    requires '.' !in ext && AsciiLower(ext) == "pdf" && !StartsWith(mime, "image/")
    ensures Categorize(FileInput(h, stem + "." + ext, size, mime)) == Pdf
  {
    ExtensionOf(stem, ext);
    PdfIsNoImageExtension();
  }

  lemma PdfIsNoImageExtension()
    ensures "pdf" !in ImageExtensions
  {
    assert "pdf"[1] != "png"[1];
  }

  /** A dot-less name is its own extension, lower-cased: a file called
      `Makefile` has the extension `makefile`. */
  lemma DotlessNameIsExtension(name: string)
    requires '.' !in name
    ensures Extension(name) == AsciiLower(name)
  {
    SplitNoSeparator(name, '.');
  }
}

=== FILE: composer.dfy ===
/** Building message content: the text shown for a stored content, the
    request list sent to the model API (system prompt, project file context,
    conversation history), and the content of a new user message with its
    attachments. */
module Composer {
  import opened Wrappers
  import opened Strings
  import opened Model

  const ProjectContextIntro: string :=
    "The following files are provided as project context. Use them to inform your responses."

  const ProjectAck: string :=
    "I've reviewed the project files and I'm ready to help. What would you like to discuss?"

  // ----- text of a content -----

  /** The texts of the text parts, in order: `filter` on the part type,
      then `map` to the text. */
  function TextsOf(parts: seq<Part>): (r: seq<string>)
    ensures |r| <= |parts|
    ensures forall s :: s in r ==> TextPart(s) in parts
    ensures forall i :: 0 <= i < |parts| && parts[i].TextPart? ==> parts[i].text in r
    decreases |parts|
  {
    if |parts| == 0 then []
    else
      var head := if parts[0].TextPart? then [parts[0].text] else [];
      var tail := TextsOf(parts[1..]);
      assert forall i :: 1 <= i < |parts| ==> parts[i] == parts[1..][i - 1];
      head + tail
  }

  /** Taking the texts keeps their order: the texts of a concatenation are
      the texts of its pieces, one after the other. */
  lemma {:induction false} TextsOfAppend(a: seq<Part>, b: seq<Part>)
    ensures TextsOf(a + b) == TextsOf(a) + TextsOf(b)
    decreases |a|
  {
    if |a| == 0 {
      assert a + b == b;
    } else {
      assert (a + b)[1..] == a[1..] + b;
      TextsOfAppend(a[1..], b);
    }
  }

  /** Every text taken from parts whose text parts hold no newline is newline-free. */
  lemma TextsNoNewline(ps: seq<Part>)
    requires forall i :: 0 <= i < |ps| && ps[i].TextPart? ==> '\n' !in ps[i].text
    ensures forall i :: 0 <= i < |TextsOf(ps)| ==> '\n' !in TextsOf(ps)[i]
  {
    var ts := TextsOf(ps);
    forall i | 0 <= i < |ts| ensures '\n' !in ts[i] {
      assert TextPart(ts[i]) in ps;
    }
  }

  /** `extractTextFromContent`: a plain content is its own text; a list of
      parts shows its text parts joined by newlines. The shown text loses
      nothing: when no text part holds a newline, splitting it at newlines
      gives back every text part. */
  function ExtractText(c: Content): (r: string)
    ensures c.Plain? ==> r == c.text
    ensures c.Parts? && TextsOf(c.parts) == [] ==> r == ""
    ensures c.Parts? && |TextsOf(c.parts)| >= 1 && (forall i :: 0 <= i < |c.parts| && c.parts[i].TextPart? ==> '\n' !in c.parts[i].text) ==>
              Split(r, '\n') == TextsOf(c.parts)
  {
    match c
    case Plain(s) => s
    case Parts(ps) =>
      var ts := TextsOf(ps);
      if |ts| >= 1 && (forall i :: 0 <= i < |ps| && ps[i].TextPart? ==> '\n' !in ps[i].text) then
        TextsNoNewline(ps);
        JoinSplit(ts, '\n');
        Join(ts, "\n")
      else Join(ts, "\n")
  }

  /** Image parts never change the shown text. */
  lemma ImagePartsInvisible(ps: seq<Part>, url: Option<string>)
    ensures TextsOf(ps + [ImageUrlPart(url)]) == TextsOf(ps)
    ensures ExtractText(Parts(ps + [ImageUrlPart(url)])) == ExtractText(Parts(ps))
  {
    TextsOfAppend(ps, [ImageUrlPart(url)]);
    assert TextsOf([ImageUrlPart(url)]) == [];
  }

  // ----- system prompt -----

  /** The system content: project instructions, then a blank line, then the
      global system prompt, each only when non-empty. */
  function SystemContent(instructions: string, prompt: string): (r: string)
    ensures r == "" <==> instructions == "" && prompt == ""
    ensures StartsWith(r, instructions)
    ensures |prompt| <= |r| && r[|r| - |prompt|..] == prompt
    ensures instructions != "" && prompt != "" ==> r == instructions + "\n\n" + prompt
    ensures instructions == "" || prompt == "" ==> |r| == |instructions| + |prompt|
  {
    var acc := if instructions != "" then instructions else "";
    if prompt != "" then
      (if acc != "" then acc + "\n\n" else acc) + prompt
    else acc
  }

  // ----- project file context -----

  function FileLabel(name: string): string {
    "[Project File: " + name + "]"
  }

  function FencedProjectFile(name: string, text: string): string {
    FileLabel(name) + "\n```\n" + text + "\n```"
  }

  /** The parts one project file contributes: a fenced block for a text file
      with text, a label and its data URL for any other file with a data URL,
      nothing for a file without payload. */
  function FileParts(f: Attachment): (r: seq<Part>)
    ensures |r| <= 2
    ensures r == [] <==> !(f.category == Text && Truthy(f.textContent)) && !Truthy(f.dataUrl)
    ensures forall j :: 0 <= j < |r| && r[j].ImageUrlPart? ==> r[j].url == f.dataUrl && Truthy(f.dataUrl)
    ensures f.category == Text && Truthy(f.textContent) ==> r == [TextPart(FencedProjectFile(f.name, f.textContent.value))]
    ensures !(f.category == Text && Truthy(f.textContent)) && Truthy(f.dataUrl) ==>
              r == [TextPart(FileLabel(f.name)), ImageUrlPart(f.dataUrl)]
  {
    if f.category == Text && Truthy(f.textContent) then
      [TextPart(FencedProjectFile(f.name, f.textContent.value))]
    else if (f.category == Image || f.category == Pdf) && Truthy(f.dataUrl) then
      [TextPart(FileLabel(f.name)), ImageUrlPart(f.dataUrl)]
    else if Truthy(f.dataUrl) then
      [TextPart(FileLabel(f.name)), ImageUrlPart(f.dataUrl)]
    else []
  }

  /** The data URLs of a list of files. */
  function DataUrls(files: seq<Attachment>): set<Option<string>> {
    set i | 0 <= i < |files| :: files[i].dataUrl
  }

  /** The parts of all project files, in file order. */
  function FilesParts(files: seq<Attachment>): (r: seq<Part>)
    ensures |r| <= 2 * |files|
    ensures forall j :: 0 <= j < |r| && r[j].ImageUrlPart? ==> Truthy(r[j].url) && r[j].url in DataUrls(files)
    decreases |files|
  {
    if |files| == 0 then []
    else
      var head := FileParts(files[0]);
      var tail := FilesParts(files[1..]);
      assert forall j :: 0 <= j < |tail| ==> (head + tail)[|head| + j] == tail[j];
      assert forall u :: u in DataUrls(files[1..]) ==> u in DataUrls(files) by {
        forall u | u in DataUrls(files[1..]) ensures u in DataUrls(files) {
          var i :| 0 <= i < |files[1..]| && files[1..][i].dataUrl == u;
          assert files[i + 1].dataUrl == u;
        }
      }
      head + tail
  }

  /** A single file contributes exactly its own parts. */
  lemma FilesPartsSingle(f: Attachment)
    ensures FilesParts([f]) == FileParts(f)
  {
    assert [f][1..] == [];
  }

  /** The parts of a file list are the parts of its pieces, in order. */
  lemma {:induction false} FilesPartsAppend(a: seq<Attachment>, b: seq<Attachment>)
    ensures FilesParts(a + b) == FilesParts(a) + FilesParts(b)
    decreases |a|
  {
    if |a| == 0 {
      assert a + b == b;
    } else {
      assert (a + b)[1..] == a[1..] + b;
      FilesPartsAppend(a[1..], b);
    }
  }

  /** The content of the project file context message. */
  function ProjectContext(files: seq<Attachment>): (r: seq<Part>)
    ensures |r| >= 1 && r[0] == TextPart(ProjectContextIntro)
    ensures r[1..] == FilesParts(files)
  {
    [TextPart(ProjectContextIntro)] + FilesParts(files)
  }

  // ----- the request -----

  function InstructionsOf(project: Option<Project>): string {
    if project.Some? then project.value.instructions else ""
  }

  predicate HasFiles(project: Option<Project>) {
    project.Some? && |project.value.files| > 0
  }

  /** The entries before the history: an optional system entry, then the
      project file context pair when the project has files. */
  function Preamble(project: Option<Project>, systemPrompt: string): (r: seq<ApiMessage>)
    ensures var sys := SystemContent(InstructionsOf(project), systemPrompt);
            var ns := if sys != "" then 1 else 0;
            && |r| == ns + (if HasFiles(project) then 2 else 0)
            && (sys != "" ==> r[0] == ApiMessage(System, Plain(sys)))
            && (HasFiles(project) ==>
                  && r[ns] == ApiMessage(User, Parts(ProjectContext(project.value.files)))
                  && r[ns + 1] == ApiMessage(Assistant, Plain(ProjectAck)))
            && (forall i :: 0 < i < |r| ==> r[i].role != System)
  {
    var sys := SystemContent(InstructionsOf(project), systemPrompt);
    var system := if sys != "" then [ApiMessage(System, Plain(sys))] else [];
    var context :=
      if HasFiles(project) then
        [ApiMessage(User, Parts(ProjectContext(project.value.files))), ApiMessage(Assistant, Plain(ProjectAck))]
      else [];
    system + context
  }

  /** The stored messages as request entries: role and content only. */
  function History(msgs: seq<Message>): (r: seq<ApiMessage>)
    ensures |r| == |msgs|
    ensures forall i :: 0 <= i < |msgs| ==> r[i].role == msgs[i].role && r[i].content == msgs[i].content
    decreases |msgs|
  {
    if |msgs| == 0 then []
    else History(msgs[..|msgs| - 1]) + [ApiMessage(msgs[|msgs| - 1].role, msgs[|msgs| - 1].content)]
  }

  /** `buildApiMessages`: the preamble (an optional system entry, then the
      project file context pair when the current project has files), then
      every stored message with its role and content unchanged, in order. */
  function BuildApiMessages(conv: Conversation, project: Option<Project>, systemPrompt: string): (r: seq<ApiMessage>)
    ensures |r| == |Preamble(project, systemPrompt)| + |conv.messages|
  {
    Preamble(project, systemPrompt) + History(conv.messages)
  }

  /** The head of a request, position by position: the system entry comes
      first when there is one, the file context pair follows exactly when the
      project has files, and no later head entry is a system entry. */
  lemma RequestHead(conv: Conversation, project: Option<Project>, systemPrompt: string)
    ensures var r := BuildApiMessages(conv, project, systemPrompt);
            var sys := SystemContent(InstructionsOf(project), systemPrompt);
            var ns := if sys != "" then 1 else 0;
            var nf := if HasFiles(project) then 2 else 0;
            && |r| == ns + nf + |conv.messages|
            && (sys != "" ==> r[0] == ApiMessage(System, Plain(sys)))
            && (HasFiles(project) ==>
                  && r[ns] == ApiMessage(User, Parts(ProjectContext(project.value.files)))
                  && r[ns + 1] == ApiMessage(Assistant, Plain(ProjectAck)))
            && (forall i :: 0 < i < ns + nf ==> r[i].role != System)
  {
    var pre := Preamble(project, systemPrompt);
    assert forall i :: 0 <= i < |pre| ==> BuildApiMessages(conv, project, systemPrompt)[i] == pre[i];
  }

  /** The tail of a request: after the head, every stored message in order,
      with its role and content unchanged. */
  lemma RequestTail(conv: Conversation, project: Option<Project>, systemPrompt: string)
    ensures var r := BuildApiMessages(conv, project, systemPrompt);
            var n := |r| - |conv.messages|;
            && n >= 0
            && forall i :: n <= i < |r| ==>
                 r[i] == ApiMessage(conv.messages[i - n].role, conv.messages[i - n].content)
  {
    TailAfter(BuildApiMessages(conv, project, systemPrompt), Preamble(project, systemPrompt), conv.messages);
  }

  /** `HistoryAfter`, counted from the end of the request. */
  lemma TailAfter(r: seq<ApiMessage>, pre: seq<ApiMessage>, msgs: seq<Message>)
    requires r == pre + History(msgs)
    ensures var n := |r| - |msgs|;
            && n >= 0
            && forall i :: n <= i < |r| ==> r[i] == ApiMessage(msgs[i - n].role, msgs[i - n].content)
  {
    HistoryAfter(pre, msgs);
  }

  /** Whatever precedes the history, the entries after it are the stored
      messages in order. */
  lemma HistoryAfter(pre: seq<ApiMessage>, msgs: seq<Message>)
    ensures forall i :: |pre| <= i < |pre| + |msgs| ==>
              (pre + History(msgs))[i] == ApiMessage(msgs[i - |pre|].role, msgs[i - |pre|].content)
  {
    var r := pre + History(msgs);
    forall i | |pre| <= i < |pre| + |msgs|
      ensures r[i] == ApiMessage(msgs[i - |pre|].role, msgs[i - |pre|].content)
    {
      assert r[i] == History(msgs)[i - |pre|];
    }
  }

  /** The request ends with the conversation's last message, as stored. */
  lemma RequestEndsWithLast(conv: Conversation, project: Option<Project>, systemPrompt: string)
    requires |conv.messages| >= 1
    ensures var r := BuildApiMessages(conv, project, systemPrompt);
            var last := conv.messages[|conv.messages| - 1];
            |r| >= 1 && r[|r| - 1] == ApiMessage(last.role, last.content)
  {
    RequestTail(conv, project, systemPrompt);
  }

  /** The request of a conversation without a project is the global system
      prompt, when set, followed by the history. */
  lemma NoProjectRequest(conv: Conversation, systemPrompt: string)
    ensures var r := BuildApiMessages(conv, None, systemPrompt);
            var ns := if systemPrompt != "" then 1 else 0;
            && |r| == ns + |conv.messages|
            && (systemPrompt != "" ==> r[0] == ApiMessage(System, Plain(systemPrompt)))
            && (forall i :: 0 <= i < |conv.messages| ==>
                  r[ns + i] == ApiMessage(conv.messages[i].role, conv.messages[i].content))
            && r == (if systemPrompt != "" then [ApiMessage(System, Plain(systemPrompt))] else []) + History(conv.messages)
  {
    var r := BuildApiMessages(conv, None, systemPrompt);
    NoProjectPreamble(systemPrompt);
    var pre := Preamble(None, systemPrompt);
    assert r == pre + History(conv.messages);
    HistoryAfter(pre, conv.messages);
    if systemPrompt != "" {
      assert r[0] == pre[0];
      forall i | 0 <= i < |conv.messages|
        ensures r[1 + i] == ApiMessage(conv.messages[i].role, conv.messages[i].content)
      {
        assert 1 <= 1 + i < 1 + |conv.messages|;
      }
    } else {
      assert r == History(conv.messages);
    }
  }

  /** Without a project the preamble is the global system prompt alone. */
  lemma NoProjectPreamble(systemPrompt: string)
    ensures Preamble(None, systemPrompt) == if systemPrompt != "" then [ApiMessage(System, Plain(systemPrompt))] else []
  {
    assert SystemContent("", systemPrompt) == systemPrompt;
  }

  /** The worked example: instructions "X", one text file, global prompt "Y"
      and one user message "hi" give system, file context, acknowledgement,
      then "hi". */
  lemma ExampleRequest(p: Project, conv: Conversation, hi: Message)
    requires p.instructions == "X" && |p.files| == 1 && p.files[0].category == Text
    requires p.files[0].textContent == Some("a") && p.files[0].name == "a.txt"
    requires hi == Message(User, Plain("hi"), Some("hi"), None) && conv.messages == [hi]
    ensures BuildApiMessages(conv, Some(p), "Y") == [
              ApiMessage(System, Plain("X\n\nY")),
              ApiMessage(User, Parts([TextPart(ProjectContextIntro), TextPart(FencedProjectFile("a.txt", "a"))])),
              ApiMessage(Assistant, Plain(ProjectAck)),
              ApiMessage(User, Plain("hi"))]
  {
    assert SystemContent("X", "Y") == "X\n\nY";
    assert FilesParts(p.files) == [TextPart(FencedProjectFile("a.txt", "a"))] by {
      assert p.files[1..] == [];
      assert FileParts(p.files[0]) == [TextPart(FencedProjectFile("a.txt", "a"))];
    }
    assert ProjectContext(p.files) == [TextPart(ProjectContextIntro), TextPart(FencedProjectFile("a.txt", "a"))];
    var r := BuildApiMessages(conv, Some(p), "Y");
    assert |r| == 4;
    assert r[0] == ApiMessage(System, Plain("X\n\nY"));
    assert r[1] == ApiMessage(User, Parts([TextPart(ProjectContextIntro), TextPart(FencedProjectFile("a.txt", "a"))]));
    assert r[2] == ApiMessage(Assistant, Plain(ProjectAck));
    assert r[3] == ApiMessage(User, Plain("hi"));
  }

  // ----- a new user message -----

  function FencedChatFile(name: string, text: Option<string>): string {
    // a missing text renders as the word null in the template literal
    "[File: " + name + "]\n```\n" + text.GetOr("null") + "\n```"
  }

  function BinaryNote(name: string, sizeLabel: string): string {
    "[Attached binary file: " + name + " (" + sizeLabel + ")]"
  }

  /** The fenced blocks of the text attachments, in order. */
  function TextFileParts(atts: seq<Attachment>): (r: seq<Part>)
    ensures |r| <= |atts|
    ensures forall j :: 0 <= j < |r| ==> r[j].TextPart?
    ensures forall i :: 0 <= i < |atts| && atts[i].category == Text ==>
              TextPart(FencedChatFile(atts[i].name, atts[i].textContent)) in r
    decreases |atts|
  {
    if |atts| == 0 then []
    else
      var head := if atts[0].category == Text then [TextPart(FencedChatFile(atts[0].name, atts[0].textContent))] else [];
      var tail := TextFileParts(atts[1..]);
      assert forall i :: 1 <= i < |atts| ==> atts[i] == atts[1..][i - 1];
      head + tail
  }

  /** The data URL of every image and pdf and a note for every binary file, in order. */
  function MediaParts(atts: seq<Attachment>, sizeLabel: nat -> string): (r: seq<Part>)
    ensures |r| <= |atts|
    ensures forall i :: 0 <= i < |atts| && (atts[i].category == Image || atts[i].category == Pdf) ==>
              ImageUrlPart(atts[i].dataUrl) in r
    ensures forall i :: 0 <= i < |atts| && atts[i].category == Binary ==>
              TextPart(BinaryNote(atts[i].name, sizeLabel(atts[i].size))) in r
    decreases |atts|
  {
    if |atts| == 0 then []
    else
      var a := atts[0];
      var head :=
        if a.category == Image || a.category == Pdf then [ImageUrlPart(a.dataUrl)]
        else if a.category == Binary then [TextPart(BinaryNote(a.name, sizeLabel(a.size)))]
        else [];
      var tail := MediaParts(atts[1..], sizeLabel);
      assert forall i :: 1 <= i < |atts| ==> atts[i] == atts[1..][i - 1];
      head + tail
  }

  /** Only a text attachment contributes to the text-file pass, with one
      fenced block; every other attachment contributes nothing. */
  lemma TextFilePartsSingle(a: Attachment)
    ensures TextFileParts([a]) == if a.category == Text then [TextPart(FencedChatFile(a.name, a.textContent))] else []
  {
    assert [a][1..] == [];
  }

  /** An image or pdf contributes its data URL to the media pass, a binary
      file its note, and a text file nothing. */
  lemma MediaPartsSingle(a: Attachment, sizeLabel: nat -> string)
    ensures MediaParts([a], sizeLabel) ==
              if a.category == Image || a.category == Pdf then [ImageUrlPart(a.dataUrl)]
              else if a.category == Binary then [TextPart(BinaryNote(a.name, sizeLabel(a.size)))]
              else []
  {
    assert [a][1..] == [];
  }

  /** The text-file pass keeps attachment order: the parts of a
      concatenation are the parts of its pieces, one after the other. */
  lemma {:induction false} TextFilePartsAppend(a: seq<Attachment>, b: seq<Attachment>)
    ensures TextFileParts(a + b) == TextFileParts(a) + TextFileParts(b)
    decreases |a|
  {
    if |a| == 0 {
      assert a + b == b;
    } else {
      assert (a + b)[1..] == a[1..] + b;
      assert (a + b)[0] == a[0];
      TextFilePartsAppend(a[1..], b);
    }
  }

  /** The media pass keeps attachment order too. */
  lemma {:induction false} MediaPartsAppend(a: seq<Attachment>, b: seq<Attachment>, sizeLabel: nat -> string)
    ensures MediaParts(a + b, sizeLabel) == MediaParts(a, sizeLabel) + MediaParts(b, sizeLabel)
    decreases |a|
  {
    if |a| == 0 {
      assert a + b == b;
    } else {
      assert (a + b)[1..] == a[1..] + b;
      assert (a + b)[0] == a[0];
      MediaPartsAppend(a[1..], b, sizeLabel);
    }
  }

  /** The per-attachment record kept on the stored message; only images keep
      their data URL there. */
  function MetaOf(a: Attachment): AttachmentMeta {
    AttachmentMeta(a.name, a.size, a.category, if a.category == Image then a.dataUrl else None)
  }

  /** The stored user message `sendMessage` appends for the typed `text`
      (already trimmed) and the pending attachments. */
  function UserMessage(text: string, atts: seq<Attachment>, sizeLabel: nat -> string): (m: Message)
    ensures m.role == User && m.displayText == Some(text)
    ensures m.content.Plain? <==> |atts| == 0
  {
    if |atts| == 0 then Message(User, Plain(text), Some(text), None)
    else
      var typed := if text != "" then [TextPart(text)] else [];
      var parts := TextFileParts(atts) + typed + MediaParts(atts, sizeLabel);
      var metas := seq(|atts|, i requires 0 <= i < |atts| => MetaOf(atts[i]));
      Message(User, Parts(parts), Some(text), Some(metas))
  }

  /** What the user message holds: the plain text alone without
      attachments; otherwise one record per attachment (its data URL kept
      only for images), the typed text, every image and PDF as an image
      part, a note for every binary file and every text file fenced under
      its name. */
  lemma UserMessageContents(text: string, atts: seq<Attachment>, sizeLabel: nat -> string)
    ensures var m := UserMessage(text, atts, sizeLabel);
            && (|atts| == 0 ==> m.content == Plain(text) && m.attachmentMeta == None)
            && (|atts| > 0 ==>
                  && m.attachmentMeta.Some? && |m.attachmentMeta.value| == |atts|
                  && (forall i :: 0 <= i < |atts| ==>
                        && m.attachmentMeta.value[i].name == atts[i].name
                        && m.attachmentMeta.value[i].size == atts[i].size
                        && m.attachmentMeta.value[i].category == atts[i].category
                        && m.attachmentMeta.value[i].dataUrl == (if atts[i].category == Image then atts[i].dataUrl else None))
                  && |m.content.parts| <= 2 * |atts| + 1
                  && (text != "" ==> TextPart(text) in m.content.parts)
                  && (forall i :: 0 <= i < |atts| && (atts[i].category == Image || atts[i].category == Pdf) ==>
                        ImageUrlPart(atts[i].dataUrl) in m.content.parts)
                  && (forall i :: 0 <= i < |atts| && atts[i].category == Binary ==>
                        TextPart(BinaryNote(atts[i].name, sizeLabel(atts[i].size))) in m.content.parts)
                  && (forall i :: 0 <= i < |atts| && atts[i].category == Text ==>
                        TextPart(FencedChatFile(atts[i].name, atts[i].textContent)) in m.content.parts))
  {
    if |atts| > 0 {
      var typed := if text != "" then [TextPart(text)] else [];
      assert UserMessage(text, atts, sizeLabel).content.parts == TextFileParts(atts) + typed + MediaParts(atts, sizeLabel);
    }
  }

  /** The order of the parts of a user message with attachments, in three
      runs: the fenced text files, then the typed text when there is any,
      then the media parts. */
  lemma UserMessageOrder(text: string, atts: seq<Attachment>, sizeLabel: nat -> string)
    requires |atts| > 0
    ensures var parts := UserMessage(text, atts, sizeLabel).content.parts;
            var files := TextFileParts(atts);
            var media := MediaParts(atts, sizeLabel);
            && |parts| == |files| + (if text != "" then 1 else 0) + |media|
            && parts[..|files|] == files
            && (text != "" ==> parts[|files|] == TextPart(text))
            && parts[|parts| - |media|..] == media
  {
    var typed := if text != "" then [TextPart(text)] else [];
    UserMessageParts(text, atts, sizeLabel);
    ThreeRuns(TextFileParts(atts), typed, MediaParts(atts, sizeLabel));
  }

  /** Where the pieces of a three-way concatenation sit in it. */
  lemma ThreeRuns<T>(a: seq<T>, b: seq<T>, c: seq<T>)
    ensures var x := a + b + c;
            && |x| == |a| + |b| + |c|
            && x[..|a|] == a
            && (|b| > 0 ==> x[|a|] == b[0])
            && x[|x| - |c|..] == c
  {
    var x := a + b + c;
    assert x[..|a|] == a;
    assert x[|x| - |c|..] == c;
  }

  lemma UserMessageParts(text: string, atts: seq<Attachment>, sizeLabel: nat -> string)
    requires |atts| > 0
    ensures UserMessage(text, atts, sizeLabel).content.parts
            == TextFileParts(atts) + (if text != "" then [TextPart(text)] else []) + MediaParts(atts, sizeLabel)
  {
  }
}

=== FILE: containers.dfy ===
/** The application state and the operations that move conversations
    between their containers: the global list used outside any project, or
    the list of the currently selected project. Every write to a container
    is followed by that container's save, which runs the retention pass over
    the whole list it persists. */
module Containers {
  import opened Wrappers
  import opened Strings
  import opened Model
  import opened Retention
  import opened Admission
  import opened Composer
  import opened Stream

  datatype AppState = AppState(
    conversations: seq<Conversation>,
    projects: seq<Project>,
    currentProjectId: Option<string>,
    currentConvId: Option<string>,
    pending: seq<Attachment>,
    streaming: bool,
    apiKey: string,
    systemPrompt: string,
    selectedModel: string,
    editingProjectId: Option<string>,
    pendingProjectFiles: seq<Attachment>)

  const TitleLength: nat := 80
  const AttachedFilesTitle: string := "(attached files)"

  // ----- lookups -----

  /** `projects.find` by identifier, as a position: the first project with
      identifier `id`, or -1. */
  function ProjectIndex(ps: seq<Project>, id: string): (k: int)
    ensures -1 <= k < |ps|
    ensures k == -1 <==> forall j :: 0 <= j < |ps| ==> ps[j].id != id
    ensures k >= 0 ==> ps[k].id == id && forall j :: 0 <= j < k ==> ps[j].id != id
  {
    IndexBy(ps, (x: Project) => x.id, id)
  }

  /** `conversations.find` by identifier, as a position: the first
      conversation with identifier `id`, or -1. */
  function ConvIndex(cs: seq<Conversation>, id: string): (k: int)
    ensures -1 <= k < |cs|
    ensures k == -1 <==> forall j :: 0 <= j < |cs| ==> cs[j].id != id
    ensures k >= 0 ==> cs[k].id == id && forall j :: 0 <= j < k ==> cs[j].id != id
  {
    IndexBy(cs, (x: Conversation) => x.id, id)
  }

  /** A lookup by identifier only looks at identifiers: two lists with the
      same identifiers position by position give the same answer. */
  lemma ProjectIndexIds(ps: seq<Project>, qs: seq<Project>, id: string)
    requires |ps| == |qs| && forall j :: 0 <= j < |ps| ==> ps[j].id == qs[j].id
    ensures ProjectIndex(ps, id) == ProjectIndex(qs, id)
  {
    var a, b := ProjectIndex(ps, id), ProjectIndex(qs, id);
    if a >= 0 && b >= 0 {
      assert ps[b].id == id;
      assert qs[a].id == id;
    }
  }

  lemma ConvIndexIds(cs: seq<Conversation>, ds: seq<Conversation>, id: string)
    requires |cs| == |ds| && forall j :: 0 <= j < |cs| ==> cs[j].id == ds[j].id
    ensures ConvIndex(cs, id) == ConvIndex(ds, id)
  {
    var a, b := ConvIndex(cs, id), ConvIndex(ds, id);
    if a >= 0 && b >= 0 {
      assert cs[b].id == id;
      assert ds[a].id == id;
    }
  }

  /** Which list the conversations on screen live in: the global list when
      no project is selected, the selected project's list, or none when the
      selected project no longer exists. */
  datatype Container = Global | InProject(k: nat) | Missing

  function Active(s: AppState): (c: Container)
    ensures c.Global? <==> !Truthy(s.currentProjectId)
    ensures c.Missing? <==> Truthy(s.currentProjectId) && ProjectIndex(s.projects, s.currentProjectId.value) == -1
    ensures c.InProject? ==> c.k < |s.projects| && s.projects[c.k].id == s.currentProjectId.value
    ensures c.InProject? ==> forall j :: 0 <= j < c.k ==> s.projects[j].id != s.currentProjectId.value
  {
    if !Truthy(s.currentProjectId) then Global
    else
      var k := ProjectIndex(s.projects, s.currentProjectId.value);
      if k < 0 then Missing else InProject(k)
  }

  /** `getCurrentProject`: the first project with the selected identifier,
      or none when no project is selected or it no longer exists. */
  function CurrentProject(s: AppState): (r: Option<Project>)
    ensures r.Some? <==> Truthy(s.currentProjectId) && exists j :: 0 <= j < |s.projects| && s.projects[j].id == s.currentProjectId.value
    ensures forall j :: 0 <= j < |s.projects| && Truthy(s.currentProjectId) && s.projects[j].id == s.currentProjectId.value
                        && (forall i :: 0 <= i < j ==> s.projects[i].id != s.currentProjectId.value) ==>
              r == Some(s.projects[j])
  {
    match Active(s)
    case InProject(k) => Some(s.projects[k])
    case _ => None
  }

  /** `getActiveConversations`: the global list when no project is
      selected, the conversations of the first project with the selected
      identifier, and an empty list when that project no longer exists. */
  function ActiveConversations(s: AppState): (r: seq<Conversation>)
    ensures !Truthy(s.currentProjectId) ==> r == s.conversations
    ensures forall j :: 0 <= j < |s.projects| && Truthy(s.currentProjectId) && s.projects[j].id == s.currentProjectId.value
                        && (forall i :: 0 <= i < j ==> s.projects[i].id != s.currentProjectId.value) ==>
              r == s.projects[j].conversations
    ensures Truthy(s.currentProjectId) && (forall j :: 0 <= j < |s.projects| ==> s.projects[j].id != s.currentProjectId.value) ==>
              r == []
  {
    match Active(s)
    case Global => s.conversations
    case InProject(k) => s.projects[k].conversations
    case Missing => []
  }

  /** `getCurrentConv`: the first conversation of the active list with the
      current identifier; none when there is no current identifier. */
  function CurrentConv(s: AppState): (r: Option<Conversation>)
    ensures r.Some? ==> s.currentConvId.Some? && r.value.id == s.currentConvId.value && r.value in ActiveConversations(s)
    ensures r.None? && s.currentConvId.Some? ==> forall c :: c in ActiveConversations(s) ==> c.id != s.currentConvId.value
    ensures var cs := ActiveConversations(s);
            forall j :: 0 <= j < |cs| && s.currentConvId.Some? && cs[j].id == s.currentConvId.value
                        && (forall i :: 0 <= i < j ==> cs[i].id != s.currentConvId.value) ==>
              r == Some(cs[j])
  {
    if s.currentConvId.None? then None
    else
      var cs := ActiveConversations(s);
      var k := ConvIndex(cs, s.currentConvId.value);
      if k < 0 then None else Some(cs[k])
  }

  /** The selected project, if any, exists. */
  predicate ValidSelection(s: AppState) {
    Truthy(s.currentProjectId) ==> exists j :: 0 <= j < |s.projects| && s.projects[j].id == s.currentProjectId.value
  }

  lemma ValidSelectionHasContainer(s: AppState)
    requires ValidSelection(s)
    ensures !Active(s).Missing?
  {
    if Truthy(s.currentProjectId) {
      var j :| 0 <= j < |s.projects| && s.projects[j].id == s.currentProjectId.value;
    }
  }

  // ----- writing a container back -----

  /** Writes `cs` back as the active list and runs the save for it: the
      global list's save retains the global list, a project's save retains
      every project, the other projects' conversations included. With the
      selected project gone nothing is written. */
  function StoreActive(s: AppState, cs: seq<Conversation>): (r: AppState)
    ensures Active(r) == Active(s)
    ensures !Active(s).Missing? ==> ActiveConversations(r) == RetainConversations(cs)
    ensures Active(s).Missing? ==> r == s
    ensures Active(s).Global? ==> r.projects == s.projects
    ensures Active(s).InProject? ==> r.conversations == s.conversations
    ensures Active(s).InProject? ==>
              var k := Active(s).k;
              && |r.projects| == |s.projects|
              && r.projects[k] == RetainProject(s.projects[k].(conversations := cs))
              && forall j :: 0 <= j < |s.projects| && j != k ==> r.projects[j] == RetainProject(s.projects[j])
    ensures r.(conversations := s.conversations, projects := s.projects) == s
  {
    match Active(s)
    case Global => s.(conversations := RetainConversations(cs))
    case InProject(k) =>
      var ps := s.projects[k := s.projects[k].(conversations := cs)];
      var r := s.(projects := RetainProjects(ps));
      ProjectIndexIds(s.projects, r.projects, s.currentProjectId.value);
      r
    case Missing => s
  }

  /** `newChat`: no current conversation and no pending attachments. */
  function NewChat(s: AppState): (r: AppState)
    ensures r.currentConvId == None && r.pending == []
    ensures r.(currentConvId := s.currentConvId, pending := s.pending) == s
  {
    s.(currentConvId := None, pending := ClearAttachments(s.pending).rest)
  }

  // ----- creating and deleting conversations -----

  /** The title of a new conversation: the first eighty characters of its first message. */
  function Title(firstMessage: string): (t: string)
    ensures |t| == if |firstMessage| < TitleLength then |firstMessage| else TitleLength
    ensures StartsWith(firstMessage, t)
    ensures |firstMessage| <= TitleLength ==> t == firstMessage
  {
    firstMessage[..if |firstMessage| < TitleLength then |firstMessage| else TitleLength]
  }

  /** `createConversation`: the new conversation goes to the front of the
      active list and becomes current. When the selected project no longer
      exists it is stored nowhere, yet its identifier still becomes current. */
  function CreateConversation(s: AppState, firstMessage: string, newId: string, now: int): (r: AppState)
    ensures r.currentConvId == Some(newId)
    ensures Active(r) == Active(s)
    ensures !Active(s).Missing? ==>
              ActiveConversations(r) == RetainConversations([Conversation(newId, Title(firstMessage), [], s.selectedModel, now)] + ActiveConversations(s))
    ensures Active(s).Missing? ==> r == s.(currentConvId := Some(newId))
    ensures r.pending == s.pending && r.streaming == s.streaming && r.apiKey == s.apiKey
    ensures r.systemPrompt == s.systemPrompt && r.selectedModel == s.selectedModel
  {
    var conv := Conversation(newId, Title(firstMessage), [], s.selectedModel, now);
    StoreActive(s, [conv] + ActiveConversations(s)).(currentConvId := Some(newId))
  }

  /** What creating a conversation leaves alone: a global creation does
      not touch the projects, a creation in a project leaves the global list
      as it was and only retains the other projects, and nothing besides
      the two lists and the current identifier changes. */
  lemma CreateConversationFrame(s: AppState, firstMessage: string, newId: string, now: int)
    ensures var r := CreateConversation(s, firstMessage, newId, now);
            && (Active(s).Global? ==> r.projects == s.projects)
            && (Active(s).InProject? ==>
                  && r.conversations == s.conversations
                  && |r.projects| == |s.projects|
                  && r.projects[Active(s).k].(conversations := []) == s.projects[Active(s).k].(conversations := [])
                  && forall j :: 0 <= j < |s.projects| && j != Active(s).k ==> r.projects[j] == RetainProject(s.projects[j]))
            && r.(conversations := s.conversations, projects := s.projects, currentConvId := s.currentConvId) == s
  {
    var conv := Conversation(newId, Title(firstMessage), [], s.selectedModel, now);
    var r1 := StoreActive(s, [conv] + ActiveConversations(s));
    assert CreateConversation(s, firstMessage, newId, now) == r1.(currentConvId := Some(newId));
  }

  /** The conversation just created is the one found as current, untouched
      by the save; with the selected project gone nothing is found. */
  lemma CreatedIsCurrent(s: AppState, firstMessage: string, newId: string, now: int)
    ensures var r := CreateConversation(s, firstMessage, newId, now);
            !Active(s).Missing? ==> CurrentConv(r) == Some(Conversation(newId, Title(firstMessage), [], s.selectedModel, now))
    ensures Active(s).Missing? ==>
              && CreateConversation(s, firstMessage, newId, now).currentConvId == Some(newId)
              && CurrentConv(CreateConversation(s, firstMessage, newId, now)).None?
  {
    var r := CreateConversation(s, firstMessage, newId, now);
    var conv := Conversation(newId, Title(firstMessage), [], s.selectedModel, now);
    if !Active(s).Missing? {
      var cs := [conv] + ActiveConversations(s);
      assert ActiveConversations(r) == RetainConversations(cs);
      assert RetainConversations(cs)[0] == RetainConversation(conv);
      assert RetainMessages([]) == [];
      assert ConvIndex(ActiveConversations(r), newId) == 0;
    }
  }

  /** The filter `(c) => c.id !== id` of `deleteConversation`. */
  function OtherConversation(id: string): Conversation -> bool {
    (c: Conversation) => c.id != id
  }

  /** `deleteConversation`: the conversation leaves the active list, which
      is saved; deleting the current conversation also starts a new chat. */
  function DeleteConversation(s: AppState, id: string): (r: AppState)
    ensures Active(r) == Active(s)
    ensures forall c :: c in ActiveConversations(r) ==> c.id != id
    ensures !Active(s).Missing? ==>
              forall c :: c in ActiveConversations(s) && c.id != id ==> RetainConversation(c) in ActiveConversations(r)
    ensures !Active(s).Missing? ==>
              ActiveConversations(r) == RetainConversations(Filter(ActiveConversations(s), OtherConversation(id)))
    ensures s.currentConvId == Some(id) ==> r.currentConvId == None && r.pending == []
    ensures s.currentConvId != Some(id) ==> r.currentConvId == s.currentConvId && r.pending == s.pending
    ensures CurrentConv(r).Some? ==> CurrentConv(r).value.id != id
  {
    var kept := Filter(ActiveConversations(s), OtherConversation(id));
    var s1 := StoreActive(s, kept);
    RetainedMembers(kept, id);
    var r := if s.currentConvId == Some(id) then NewChat(s1) else s1;
    assert r.projects == s1.projects && r.conversations == s1.conversations && r.currentProjectId == s1.currentProjectId;
    assert Active(r) == Active(s1) && ActiveConversations(r) == ActiveConversations(s1);
    r
  }

  /** Deleting a conversation writes only the active container: with no
      container nothing is written, the global list's deletion leaves the
      projects alone, and a project's deletion leaves the global list alone
      and only retains the other projects. Settings and the project editor
      are untouched. */
  lemma DeleteConversationFrame(s: AppState, id: string)
    ensures var r := DeleteConversation(s, id);
            && (Active(s).Missing? ==> r.conversations == s.conversations && r.projects == s.projects)
            && (Active(s).Global? ==> r.projects == s.projects)
            && (Active(s).InProject? ==>
                  && r.conversations == s.conversations && |r.projects| == |s.projects|
                  && r.projects[Active(s).k].(conversations := []) == s.projects[Active(s).k].(conversations := [])
                  && forall j :: 0 <= j < |s.projects| && j != Active(s).k ==> r.projects[j] == RetainProject(s.projects[j]))
            && r.(conversations := s.conversations, projects := s.projects, currentConvId := s.currentConvId, pending := s.pending) == s
  {
    var kept := Filter(ActiveConversations(s), OtherConversation(id));
    var s1 := StoreActive(s, kept);
    assert DeleteConversation(s, id) == if s.currentConvId == Some(id) then NewChat(s1) else s1;
  }

  // ----- deleting a project -----

  /** The filter `(p) => p.id !== state.editingProjectId` of `deleteCurrentProject`. */
  function OtherProject(id: string): Project -> bool {
    (p: Project) => p.id != id
  }

  /** `deleteCurrentProject`: deletes the project open in the editor, with its
      conversations, once the user confirms; closes the editor and starts a
      new chat. Without an open project, with an unknown one, or without
      confirmation nothing changes. */
  function DeleteCurrentProject(s: AppState, confirmed: bool): (r: AppState)
    ensures !Truthy(s.editingProjectId) || !confirmed ==> r == s
    ensures Truthy(s.editingProjectId) && ProjectIndex(s.projects, s.editingProjectId.value) == -1 ==> r == s
    ensures Truthy(s.editingProjectId) && confirmed && ProjectIndex(s.projects, s.editingProjectId.value) >= 0 ==>
              var id := s.editingProjectId.value;
              && r.projects == RetainProjects(Filter(s.projects, OtherProject(id)))
              && (forall p :: p in r.projects ==> p.id != id)
              && |r.projects| < |s.projects|
              && r.editingProjectId == None && r.pendingProjectFiles == []
              && r.currentConvId == None && r.pending == []
              && (s.currentProjectId == s.editingProjectId ==> r.currentProjectId == None)
              && (s.currentProjectId != s.editingProjectId ==> r.currentProjectId == s.currentProjectId)
              && r.conversations == s.conversations
    ensures r.apiKey == s.apiKey && r.systemPrompt == s.systemPrompt
    ensures r.streaming == s.streaming && r.selectedModel == s.selectedModel
  {
    if !Truthy(s.editingProjectId) then s
    else
      var id := s.editingProjectId.value;
      var k := ProjectIndex(s.projects, id);
      if k < 0 || !confirmed then s
      else
        var kept := Filter(s.projects, OtherProject(id));
        assert |kept| < |s.projects| by {
          FilterShrinks(s.projects, OtherProject(id), k);
        }
        var wasCurrent := s.currentProjectId == Some(id);
        var s1 := s.(projects := RetainProjects(kept),
                     currentProjectId := if wasCurrent then None else s.currentProjectId,
                     currentConvId := if wasCurrent then None else s.currentConvId);
        RetainedProjectsLack(kept, id);
        NewChat(s1.(editingProjectId := None, pendingProjectFiles := []))
  }

  /** Saving projects brings in no identifier the list did not have. */
  lemma RetainedProjectsLack(ps: seq<Project>, id: string)
    requires forall p :: p in ps ==> p.id != id
    ensures forall p :: p in RetainProjects(ps) ==> p.id != id
  {
    forall p | p in RetainProjects(ps) ensures p.id != id {
      var j :| 0 <= j < |ps| && RetainProjects(ps)[j] == p;
      assert ps[j] in ps;
    }
  }

  /** Deleting a project never leaves the selection on a project that is gone. */
  lemma DeleteKeepsSelectionValid(s: AppState, confirmed: bool)
    requires ValidSelection(s)
    ensures ValidSelection(DeleteCurrentProject(s, confirmed))
  {
    var r := DeleteCurrentProject(s, confirmed);
    if r != s && Truthy(r.currentProjectId) {
      var id := s.editingProjectId.value;
      var cur := s.currentProjectId.value;
      assert cur != id;
      var j :| 0 <= j < |s.projects| && s.projects[j].id == cur;
      var kept := Filter(s.projects, OtherProject(id));
      assert s.projects[j] in kept;
      var i :| 0 <= i < |kept| && kept[i] == s.projects[j];
      assert r.projects == RetainProjects(kept);
      assert r.projects[i].id == cur;
    }
  }

  // ----- sending a message -----

  /** The position of the current conversation in the active list. */
  function CurrentIndex(s: AppState): int
    requires s.currentConvId.Some?
  {
    ConvIndex(ActiveConversations(s), s.currentConvId.value)
  }

  /** What a save around position `k` of the active list leaves of `s` in
      `r`: the list keeps its length, every other conversation on it is
      only retained, and the other container is untouched (the projects
      for a global save, the global list for a project save, whose other
      projects are only retained). A project save changes nothing of the
      active project besides its conversations: its name, instructions and
      files stay as they were. */
  predicate OthersRetained(s: AppState, r: AppState, k: int) {
    var cs := ActiveConversations(s);
    && |ActiveConversations(r)| == |cs|
    && (forall j :: 0 <= j < |cs| && j != k ==> ActiveConversations(r)[j] == RetainConversation(cs[j]))
    && (Active(s).Global? ==> r.projects == s.projects)
    && (Active(s).InProject? ==>
          && r.conversations == s.conversations
          && |r.projects| == |s.projects|
          && r.projects[Active(s).k].(conversations := []) == s.projects[Active(s).k].(conversations := [])
          && forall j :: 0 <= j < |s.projects| && j != Active(s).k ==> r.projects[j] == RetainProject(s.projects[j]))
  }

  /** Two saves around the same position compose: retaining twice is
      retaining once. */
  lemma OthersRetainedTrans(s: AppState, s2: AppState, s3: AppState, k: int)
    requires OthersRetained(s, s2, k) && OthersRetained(s2, s3, k) && Active(s2) == Active(s)
    ensures OthersRetained(s, s3, k)
  {
    var cs := ActiveConversations(s);
    forall j | 0 <= j < |cs| && j != k ensures ActiveConversations(s3)[j] == RetainConversation(cs[j]) {
      RetainConversationIdempotent(cs[j]);
    }
    if Active(s).InProject? {
      forall j | 0 <= j < |s.projects| && j != Active(s).k ensures s3.projects[j] == RetainProject(s.projects[j]) {
        RetainProjectIdempotent(s.projects[j]);
      }
    }
  }

  /** Saving the active list with position `k` replaced leaves the rest of
      the state as `OthersRetained` says. */
  lemma StoreKeepsOthers(s: AppState, c: Conversation, k: int)
    requires 0 <= k < |ActiveConversations(s)|
    ensures OthersRetained(s, StoreActive(s, ActiveConversations(s)[k := c]), k)
  {
    var cs := ActiveConversations(s)[k := c];
    var r := StoreActive(s, cs);
    assert ActiveConversations(r) == RetainConversations(cs);
  }

  /** Puts `c` in place of the current conversation and saves its list;
      the current conversation keeps its position. */
  function ReplaceCurrent(s: AppState, c: Conversation): (r: AppState)
    requires CurrentConv(s).Some? && c.id == CurrentConv(s).value.id
    ensures CurrentConv(r) == Some(RetainConversation(c))
    ensures CurrentIndex(r) == CurrentIndex(s)
    ensures Active(r) == Active(s)
    ensures r.(conversations := s.conversations, projects := s.projects) == s
  {
    StoreCurrent(s, c);
    StoreActive(s, ActiveConversations(s)[CurrentIndex(s) := c])
  }

  /** Replacing the current conversation only retains the rest of its list
      and the other container. */
  lemma ReplaceKeepsOthers(s: AppState, c: Conversation)
    requires CurrentConv(s).Some? && c.id == CurrentConv(s).value.id
    ensures OthersRetained(s, ReplaceCurrent(s, c), CurrentIndex(s))
  {
    StoreKeepsOthers(s, c, CurrentIndex(s));
  }

  /** Saving the active list with `c` at the current position finds `c`,
      retained, at that same position. */
  lemma StoreCurrent(s: AppState, c: Conversation)
    requires CurrentConv(s).Some? && c.id == CurrentConv(s).value.id
    ensures var r := StoreActive(s, ActiveConversations(s)[CurrentIndex(s) := c]);
            && CurrentConv(r) == Some(RetainConversation(c))
            && CurrentIndex(r) == CurrentIndex(s)
  {
    var cs := ActiveConversations(s);
    var id := s.currentConvId.value;
    var k := ConvIndex(cs, id);
    var r := StoreActive(s, cs[k := c]);
    ConvIndexIds(cs, ActiveConversations(r), id);
  }

  /** The result of a send: the state afterwards and the messages posted to
      the relay, if the request was made. */
  datatype Sent = Sent(state: AppState, request: Option<seq<ApiMessage>>)

  /** `sendMessage`, from the trimmed input to the committed reply. `input`
      is the raw text box, `newId` and `now` name and date a conversation
      created on the way, and `resp` is how the relay answered. Nothing
      happens without text or attachments, while a reply is streaming, or
      without an API key. When the current conversation cannot be found
      (the selected project is gone) the lookup yields `undefined` and
      `conv.messages.push` throws an uncaught TypeError, which ends the
      send before any further change: here the send returns the state as
      it was after the lookup, with no request. */
  function SendMessage(s: AppState, input: string, newId: string, now: int, sizeLabel: nat -> string,
                       resp: Response, parse: Parser): (r: Sent)
    ensures (Trim(input) == "" && |s.pending| == 0) || s.streaming || s.apiKey == "" ==> r == Sent(s, None)
    ensures r.request.Some? ==> r.state.pending == [] && CurrentConv(r.state).Some?
    ensures r.state.streaming == s.streaming
  {
    var text := Trim(input);
    var atts := s.pending;
    if (text == "" && |atts| == 0) || s.streaming then Sent(s, None)
    else if s.apiKey == "" then Sent(s, None)
    else
      var s1 := EnsureConversation(s, text, newId, now);
      if CurrentConv(s1).None? then Sent(s1, None)
      else Turn(s1, UserMessage(text, atts, sizeLabel), resp, parse)
  }

  /** The conversation a send writes to: the current one, or a new one
      titled after the text (or after the attachments when there is no
      text) when none is current. */
  function EnsureConversation(s: AppState, text: string, newId: string, now: int): (r: AppState)
    ensures Truthy(s.currentConvId) ==> r == s
    ensures !Truthy(s.currentConvId) ==> r.currentConvId == Some(newId)
    ensures r.pending == s.pending && r.streaming == s.streaming
  {
    if Truthy(s.currentConvId) then s
    else CreateConversation(s, if text != "" then text else AttachedFilesTitle, newId, now)
  }

  /** A request that is made ends with the user message built from the
      trimmed input and the attachments pending before the send. */
  lemma SendEndsWithUserMessage(s: AppState, input: string, newId: string, now: int, sizeLabel: nat -> string,
                                resp: Response, parse: Parser)
    ensures var r := SendMessage(s, input, newId, now, sizeLabel, resp, parse);
            r.request.Some? ==>
              && |r.request.value| >= 1
              && r.request.value[|r.request.value| - 1] == ApiMessage(User, UserMessage(Trim(input), s.pending, sizeLabel).content)
  {
    var r := SendMessage(s, input, newId, now, sizeLabel, resp, parse);
    if r.request.Some? {
      var text := Trim(input);
      assert !((text == "" && |s.pending| == 0) || s.streaming || s.apiKey == "");
      var s1 := EnsureConversation(s, text, newId, now);
      assert CurrentConv(s1).Some?;
      var user := UserMessage(text, s.pending, sizeLabel);
      assert r == Turn(s1, user, resp, parse);
      TurnEndsWith(r, s1, user, resp, parse);
    }
  }

  /** The request of a turn ends with the turn's user message. */
  lemma TurnEndsWith(r: Sent, s: AppState, user: Message, resp: Response, parse: Parser)
    requires CurrentConv(s).Some? && r == Turn(s, user, resp, parse)
    ensures r.request.Some? && |r.request.value| >= 1
    ensures r.request.value[|r.request.value| - 1] == ApiMessage(user.role, user.content)
  {
  }

  /** One turn on the current conversation: the user message is stored and
      saved, the pending attachments cleared, the request built from the
      saved conversation, and the reply, if committed, stored and saved. */
  function Turn(s: AppState, user: Message, resp: Response, parse: Parser): (r: Sent)
    requires CurrentConv(s).Some?
    ensures r.request.Some? && r.state.pending == [] && CurrentConv(r.state).Some?
    ensures |r.request.value| >= 1 && r.request.value[|r.request.value| - 1] == ApiMessage(user.role, user.content)
    ensures r.state.streaming == s.streaming && r.state.currentConvId == s.currentConvId
  {
    var s2 := Ask(s, user);
    var msgs := CurrentConv(s2).value.messages;
    assert |msgs| >= 1 && msgs[|msgs| - 1] == user;
    var request := RequestFor(s2);
    var s3 := Answer(s2, resp, parse);
    Sent(s3, Some(request))
  }

  /** A turn writes only the current conversation: it keeps its position,
      every other conversation of the list is only retained, the other
      container is untouched or only retained, and no field besides the
      lists and the pending attachments changes. */
  lemma TurnKeepsOthers(s: AppState, user: Message, resp: Response, parse: Parser)
    requires CurrentConv(s).Some?
    ensures var r := Turn(s, user, resp, parse).state;
            && CurrentIndex(r) == CurrentIndex(s) && OthersRetained(s, r, CurrentIndex(s))
            && r.(conversations := s.conversations, projects := s.projects, pending := s.pending) == s
  {
    var s2 := Ask(s, user);
    var s3 := Answer(s2, resp, parse);
    assert Turn(s, user, resp, parse).state == s3;
    AskKeepsOthers(s, user);
    if CommittedReply(resp, parse).Some? {
      AnswerKeepsOthers(s2, resp, parse);
      OthersRetainedTrans(s, s2, s3, CurrentIndex(s));
    }
  }

  /** The request built from the current conversation as saved: whatever
      the head holds, it ends with the conversation's last message. */
  function RequestFor(s: AppState): (q: seq<ApiMessage>)
    requires CurrentConv(s).Some? && |CurrentConv(s).value.messages| >= 1
    ensures var msgs := CurrentConv(s).value.messages;
            |q| >= 1 && q[|q| - 1] == ApiMessage(msgs[|msgs| - 1].role, msgs[|msgs| - 1].content)
  {
    var saved := CurrentConv(s).value;
    RequestEndsWithLast(saved, CurrentProject(s), s.systemPrompt);
    BuildApiMessages(saved, CurrentProject(s), s.systemPrompt)
  }

  /** After a turn the current conversation is the same one, holding its
      old messages, the user message and any committed reply, saved once. */
  lemma TurnStores(s: AppState, user: Message, resp: Response, parse: Parser)
    requires CurrentConv(s).Some?
    ensures var r := Turn(s, user, resp, parse);
            && CurrentConv(r.state).Some? && CurrentConv(r.state).value.id == CurrentConv(s).value.id
            && CurrentConv(r.state).value.messages == RetainMessages(Commit(CurrentConv(s).value.messages + [user], resp, parse))
  {
    CommitAfterRetain(CurrentConv(s).value.messages + [user], resp, parse);
  }

  /** The first half of a turn: the user message is appended to the current
      conversation, which takes the selected model, its list is saved and
      the pending attachments are cleared. */
  function Ask(s: AppState, user: Message): (r: AppState)
    requires CurrentConv(s).Some?
    ensures var conv := CurrentConv(s).value;
            CurrentConv(r) == Some(RetainConversation(conv.(messages := conv.messages + [user], model := s.selectedModel)))
    ensures var msgs := CurrentConv(r).value.messages;
            |msgs| >= 1 && msgs[|msgs| - 1] == user
    ensures r.pending == [] && r.streaming == s.streaming && r.currentConvId == s.currentConvId
    ensures r.systemPrompt == s.systemPrompt && Active(r) == Active(s)
  {
    var conv := CurrentConv(s).value;
    var msgs := conv.messages + [user];
    assert RetainMessages(msgs)[|msgs| - 1] == user;
    var stored := ReplaceCurrent(s, conv.(messages := msgs, model := s.selectedModel));
    PendingIrrelevant(stored, ClearAttachments(s.pending).rest);
    stored.(pending := ClearAttachments(s.pending).rest)
  }

  /** The pending attachments play no part in finding the current
      conversation. */
  lemma PendingIrrelevant(s: AppState, pending: seq<Attachment>)
    ensures Active(s.(pending := pending)) == Active(s)
    ensures CurrentConv(s.(pending := pending)) == CurrentConv(s)
  {
  }

  /** The second half of a turn: a committed reply is appended to the
      current conversation and its list saved; otherwise nothing changes. */
  function Answer(s: AppState, resp: Response, parse: Parser): (r: AppState)
    requires CurrentConv(s).Some?
    ensures CurrentConv(r).Some?
    ensures CommittedReply(resp, parse).None? ==> r == s
    ensures CommittedReply(resp, parse).Some? ==>
              var conv := CurrentConv(s).value;
              CurrentConv(r) == Some(RetainConversation(conv.(messages := Commit(conv.messages, resp, parse))))
    ensures Active(r) == Active(s)
    ensures r.(conversations := s.conversations, projects := s.projects) == s
  {
    var conv := CurrentConv(s).value;
    var answered := Commit(conv.messages, resp, parse);
    if |answered| > |conv.messages| then ReplaceCurrent(s, conv.(messages := answered)) else s
  }

  /** Asking writes only the current conversation, which keeps its
      position; the rest of the list, and the other container, are only
      retained. */
  lemma AskKeepsOthers(s: AppState, user: Message)
    requires CurrentConv(s).Some?
    ensures var r := Ask(s, user);
            && CurrentIndex(r) == CurrentIndex(s) && OthersRetained(s, r, CurrentIndex(s))
            && r.(conversations := s.conversations, projects := s.projects, pending := s.pending) == s
  {
    var conv := CurrentConv(s).value;
    var r1 := ReplaceCurrent(s, conv.(messages := conv.messages + [user], model := s.selectedModel));
    var r := Ask(s, user);
    assert r == r1.(pending := r.pending);
    assert ActiveConversations(r) == ActiveConversations(r1);
    ReplaceKeepsOthers(s, conv.(messages := conv.messages + [user], model := s.selectedModel));
  }

  /** A committed answer writes only the current conversation, in the same
      way. */
  lemma AnswerKeepsOthers(s: AppState, resp: Response, parse: Parser)
    requires CurrentConv(s).Some? && CommittedReply(resp, parse).Some?
    ensures var r := Answer(s, resp, parse);
            CurrentIndex(r) == CurrentIndex(s) && OthersRetained(s, r, CurrentIndex(s))
  {
    var conv := CurrentConv(s).value;
    ReplaceKeepsOthers(s, conv.(messages := Commit(conv.messages, resp, parse)));
  }

  /** Committing a reply after a save and saving again is the same as
      saving once after the commit. */
  lemma CommitAfterRetain(msgs: seq<Message>, resp: Response, parse: Parser)
    ensures RetainMessages(Commit(RetainMessages(msgs), resp, parse)) == RetainMessages(Commit(msgs, resp, parse))
  {
    match CommittedReply(resp, parse)
    case None =>
      RetainIdempotent(msgs);
    case Some(text) =>
      RetainThenAppend(msgs, [AssistantMessage(text)]);
  }

  /** A sent message on an existing conversation: the request is made, and
      the conversation afterwards holds its old messages, the user message
      and any committed reply, saved. */
  lemma SendToExisting(s: AppState, input: string, newId: string, now: int, sizeLabel: nat -> string,
                       resp: Response, parse: Parser, c: Conversation)
    requires Trim(input) != "" || |s.pending| > 0
    requires !s.streaming && s.apiKey != ""
    requires Truthy(s.currentConvId) && CurrentConv(s) == Some(c)
    ensures var r := SendMessage(s, input, newId, now, sizeLabel, resp, parse);
            && r.request.Some?
            && CurrentConv(r.state).Some? && CurrentConv(r.state).value.id == c.id
            && CurrentConv(r.state).value.messages
               == RetainMessages(Commit(c.messages + [UserMessage(Trim(input), s.pending, sizeLabel)], resp, parse))
            && CurrentIndex(r.state) == CurrentIndex(s) && OthersRetained(s, r.state, CurrentIndex(s))
            && r.state.(conversations := s.conversations, projects := s.projects, pending := s.pending) == s
  {
    var user := UserMessage(Trim(input), s.pending, sizeLabel);
    assert SendMessage(s, input, newId, now, sizeLabel, resp, parse) == Turn(s, user, resp, parse);
    TurnStores(s, user, resp, parse);
    TurnKeepsOthers(s, user, resp, parse);
  }

  /** The first message with no current conversation, globally or in a
      project that exists, starts a conversation named after it, which ends
      up holding the user message and any committed reply. */
  lemma SendStartsConversation(s: AppState, input: string, newId: string, now: int, sizeLabel: nat -> string,
                               resp: Response, parse: Parser)
    requires Trim(input) != "" || |s.pending| > 0
    requires !s.streaming && s.apiKey != ""
    requires !Truthy(s.currentConvId) && !Active(s).Missing?
    ensures var r := SendMessage(s, input, newId, now, sizeLabel, resp, parse);
            && r.request.Some?
            && r.state.currentConvId == Some(newId)
            && CurrentConv(r.state).Some?
            && CurrentConv(r.state).value.messages == Commit([UserMessage(Trim(input), s.pending, sizeLabel)], resp, parse)
  {
    var text := Trim(input);
    var user := UserMessage(text, s.pending, sizeLabel);
    var s1 := EnsureConversation(s, text, newId, now);
    EnsureStartsEmpty(s, text, newId, now);
    var r := SendMessage(s, input, newId, now, sizeLabel, resp, parse);
    assert r == Turn(s1, user, resp, parse);
    TurnStores(s1, user, resp, parse);
    assert CurrentConv(s1).value.messages + [user] == [user];
    FirstTurnUntouched(user, resp, parse);
  }

  /** Globally or in a project that exists, the conversation a send
      creates is current and holds no messages yet. */
  lemma EnsureStartsEmpty(s: AppState, text: string, newId: string, now: int)
    requires !Truthy(s.currentConvId) && !Active(s).Missing?
    ensures var s1 := EnsureConversation(s, text, newId, now);
            && s1.currentConvId == Some(newId)
            && CurrentConv(s1).Some? && CurrentConv(s1).value.id == newId && CurrentConv(s1).value.messages == []
  {
    var title := if text != "" then text else AttachedFilesTitle;
    assert EnsureConversation(s, text, newId, now) == CreateConversation(s, title, newId, now);
    CreatedIsCurrent(s, title, newId, now);
  }

  /** The first turn of a conversation is too short for the retention pass
      to touch. */
  lemma FirstTurnUntouched(user: Message, resp: Response, parse: Parser)
    ensures RetainMessages(Commit([user], resp, parse)) == Commit([user], resp, parse)
  {
    var msgs := Commit([user], resp, parse);
    assert |msgs| <= KeepRecent;
    ShortConversationUntouched(Conversation("", "", msgs, "", 0));
  }

  /** With the selected project gone the send stops after the lookup: no
      request is made and the attachments stay pending, though a
      conversation identifier may have been made current. */
  lemma SendWithoutProject(s: AppState, input: string, newId: string, now: int, sizeLabel: nat -> string,
                           resp: Response, parse: Parser)
    requires Trim(input) != "" || |s.pending| > 0
    requires !s.streaming && s.apiKey != ""
    requires Active(s).Missing?
    ensures var r := SendMessage(s, input, newId, now, sizeLabel, resp, parse);
            && r.request.None?
            && r.state.pending == s.pending
            && r.state.conversations == s.conversations && r.state.projects == s.projects
            && r.state.currentConvId == (if Truthy(s.currentConvId) then s.currentConvId else Some(newId))
  {
    var text := Trim(input);
    if !Truthy(s.currentConvId) {
      CreatedIsCurrent(s, if text != "" then text else AttachedFilesTitle, newId, now);
    }
  }
}

=== FILE: model.dfy ===
/** The client's in-memory records: files picked by the user, processed
    attachments, messages, conversations and projects. */
module Model {
  import opened Wrappers

  /** The four kinds a picked file is sorted into. */
  datatype Category = Image | Pdf | Text | Binary

  /** A browser `File` as the client sees it: name, byte size and MIME type.
      `handle` stands for the object's identity, so two picked files with the
      same name, size and type are still different files. */
  datatype FileInput = FileInput(handle: nat, name: string, size: nat, mime: string)

  /** What the browser's foreign APIs yield for one file: a fresh identifier,
      the file read as a data URL, the file read as UTF-8 text, and an object
      URL for previews. Only the ones the file's category needs are used. */
  datatype FileData = FileData(id: string, dataUrl: string, text: string, preview: string)

  /** A processed file, pending in the composer or stored as a project file. */
  datatype Attachment = Attachment(
    id: string,
    name: string,
    size: nat,
    mime: string,
    category: Category,
    dataUrl: Option<string>,
    textContent: Option<string>,
    preview: Option<string>)

  /** The per-attachment record kept on a stored user message. */
  datatype AttachmentMeta = AttachmentMeta(name: string, size: nat, category: Category, dataUrl: Option<string>)

  /** One typed part of a multi-part message content. */
  datatype Part = TextPart(text: string) | ImageUrlPart(url: Option<string>)

  /** Message content: a plain string or an ordered list of parts. */
  datatype Content = Plain(text: string) | Parts(parts: seq<Part>)

  datatype Role = System | User | Assistant

  /** A stored conversation message. `displayText` and `attachmentMeta` are
      absent (`undefined`) on assistant messages. */
  datatype Message = Message(
    role: Role,
    content: Content,
    displayText: Option<string>,
    attachmentMeta: Option<seq<AttachmentMeta>>)

  /** One entry of the request sent to the model API. */
  datatype ApiMessage = ApiMessage(role: Role, content: Content)

  datatype Conversation = Conversation(
    id: string,
    title: string,
    messages: seq<Message>,
    model: string,
    createdAt: int)

  datatype Project = Project(
    id: string,
    name: string,
    description: string,
    instructions: string,
    files: seq<Attachment>,
    conversations: seq<Conversation>,
    createdAt: int,
    updatedAt: int)

  /** `findIndex`/`find` by identifier: the position of the first element
      whose `key` is `id`, or -1 when there is none. */
  function IndexBy<T>(xs: seq<T>, key: T -> string, id: string): (k: int)
    ensures -1 <= k < |xs|
    ensures k == -1 <==> forall j :: 0 <= j < |xs| ==> key(xs[j]) != id
    ensures k >= 0 ==> key(xs[k]) == id && forall j :: 0 <= j < k ==> key(xs[j]) != id
    decreases |xs|
  {
    if |xs| == 0 then -1
    else if key(xs[0]) == id then 0
    else
      var k := IndexBy(xs[1..], key, id);
      assert forall j :: 1 <= j < |xs| ==> xs[j] == xs[1..][j - 1];
      if k == -1 then -1 else k + 1
  }

  /** `xs.filter(keep)`: the elements `keep` accepts, in their original order. */
  function Filter<T(!new)>(xs: seq<T>, keep: T -> bool): (r: seq<T>)
    ensures |r| <= |xs|
    ensures forall x :: x in r <==> x in xs && keep(x)
    decreases |xs|
  {
    if |xs| == 0 then []
    else (if keep(xs[0]) then [xs[0]] else []) + Filter(xs[1..], keep)
  }

  /** Filtering keeps order: the filter of a concatenation is the
      concatenation of the filters. */
  lemma {:induction false} FilterAppend<T(!new)>(a: seq<T>, b: seq<T>, keep: T -> bool)
    ensures Filter(a + b, keep) == Filter(a, keep) + Filter(b, keep)
    decreases |a|
  {
    if |a| == 0 {
      assert a + b == b;
    } else {
      assert (a + b)[1..] == a[1..] + b;
      FilterAppend(a[1..], b, keep);
    }
  }

  /** A filter that accepts everything keeps the list as it is. */
  lemma {:induction false} FilterAll<T(!new)>(xs: seq<T>, keep: T -> bool)
    requires forall j :: 0 <= j < |xs| ==> keep(xs[j])
    ensures Filter(xs, keep) == xs
    decreases |xs|
  {
    if |xs| > 0 {
      FilterAll(xs[1..], keep);
      assert [xs[0]] + xs[1..] == xs;
    }
  }

  /** A filter that rejects some element shortens the list. */
  lemma {:induction false} FilterShrinks<T(!new)>(xs: seq<T>, keep: T -> bool, k: nat)
    requires k < |xs| && !keep(xs[k])
    ensures |Filter(xs, keep)| < |xs|
    decreases |xs|
  {
    if k > 0 {
      FilterShrinks(xs[1..], keep, k - 1);
    }
  }

  /** Concatenation is associative; loops that extend an accumulator one
      piece at a time need this step spelled out. */
  lemma ConcatAssoc<T>(x: seq<T>, y: seq<T>, z: seq<T>)
    ensures (x + y) + z == x + (y + z)
  {
  }

  /** The assistant message appended when a reply is committed. */
  function AssistantMessage(text: string): Message {
    Message(Assistant, Plain(text), None, None)
  }
}

=== FILE: retention.dfy ===
/** The size-mitigation pass run before conversations or projects are
    persisted: on every message older than the ten most recent of its
    conversation, every attachment record loses its data URL. The pass
    changes the in-memory records themselves, not a copy. */
module Retention {
  import opened Wrappers
  import opened Model

  const KeepRecent: nat := 10

  /** The message with every attachment record's data URL nulled. */
  function Strip(m: Message): Message {
    match m.attachmentMeta
    case None => m
    case Some(metas) =>
      m.(attachmentMeta := Some(seq(|metas|, i requires 0 <= i < |metas| => metas[i].(dataUrl := None))))
  }

  /** No attachment record of the message holds a data URL. */
  predicate NoPayload(m: Message) {
    m.attachmentMeta.Some? ==> forall i :: 0 <= i < |m.attachmentMeta.value| ==> m.attachmentMeta.value[i].dataUrl.None?
  }

  /** `m'` differs from `m` at most in attachment data URLs: role, content,
      display text, and the names, sizes and categories of the records stay. */
  predicate SameBesidesPayload(m: Message, m': Message) {
    && m'.role == m.role && m'.content == m.content && m'.displayText == m.displayText
    && m'.attachmentMeta.Some? == m.attachmentMeta.Some?
    && (m.attachmentMeta.Some? ==>
          && |m'.attachmentMeta.value| == |m.attachmentMeta.value|
          && forall i :: 0 <= i < |m.attachmentMeta.value| ==>
               m'.attachmentMeta.value[i].(dataUrl := None) == m.attachmentMeta.value[i].(dataUrl := None))
  }

  /** The pass over one conversation's messages. */
  function RetainMessages(msgs: seq<Message>): (r: seq<Message>)
    ensures |r| == |msgs|
    ensures forall i :: 0 <= i < |msgs| ==> SameBesidesPayload(msgs[i], r[i])
    ensures forall i :: 0 <= i < |msgs| - KeepRecent ==> NoPayload(r[i])
    ensures forall i :: 0 <= i < |msgs| && i >= |msgs| - KeepRecent ==> r[i] == msgs[i]
  {
    seq(|msgs|, i requires 0 <= i < |msgs| => if i < |msgs| - KeepRecent then Strip(msgs[i]) else msgs[i])
  }

  function RetainConversation(c: Conversation): Conversation {
    c.(messages := RetainMessages(c.messages))
  }

  function RetainConversations(cs: seq<Conversation>): seq<Conversation> {
    seq(|cs|, k requires 0 <= k < |cs| => RetainConversation(cs[k]))
  }

  function RetainProject(p: Project): Project {
    p.(conversations := RetainConversations(p.conversations))
  }

  function RetainProjects(ps: seq<Project>): seq<Project> {
    seq(|ps|, k requires 0 <= k < |ps| => RetainProject(ps[k]))
  }

  /** The message loop inside the save routines: walks the messages by index
      and nulls the data URLs of every message before the last ten. */
  method RetentionLoop(msgs: seq<Message>) returns (r: seq<Message>)
    ensures r == RetainMessages(msgs)
  {
    r := msgs;
    var idx := 0;
    while idx < |msgs|
      invariant 0 <= idx <= |msgs| && |r| == |msgs|
      invariant forall i :: 0 <= i < idx ==> r[i] == RetainMessages(msgs)[i]
      invariant forall i :: idx <= i < |msgs| ==> r[i] == msgs[i]
    {
      var msg := r[idx];
      if msg.attachmentMeta.Some? && idx < |msgs| - KeepRecent {
        r := r[idx := Strip(msg)];
      }
      idx := idx + 1;
    }
  }

  /** The loops of the conversation save routine, over every conversation. */
  method SaveConversationsPass(cs: seq<Conversation>) returns (r: seq<Conversation>)
    ensures r == RetainConversations(cs)
  {
    r := cs;
    var k := 0;
    while k < |cs|
      invariant 0 <= k <= |cs| && |r| == |cs|
      invariant forall j :: 0 <= j < k ==> r[j] == RetainConversation(cs[j])
      invariant forall j :: k <= j < |cs| ==> r[j] == cs[j]
    {
      var msgs := RetentionLoop(cs[k].messages);
      r := r[k := cs[k].(messages := msgs)];
      k := k + 1;
    }
  }

  /** The loops of the project save routine, over every project's conversations. */
  method SaveProjectsPass(ps: seq<Project>) returns (r: seq<Project>)
    ensures r == RetainProjects(ps)
  {
    r := ps;
    var k := 0;
    while k < |ps|
      invariant 0 <= k <= |ps| && |r| == |ps|
      invariant forall j :: 0 <= j < k ==> r[j] == RetainProject(ps[j])
      invariant forall j :: k <= j < |ps| ==> r[j] == ps[j]
    {
      var cs := SaveConversationsPass(ps[k].conversations);
      r := r[k := ps[k].(conversations := cs)];
      k := k + 1;
    }
  }

  // ----- properties of the pass -----

  /** Running the pass twice is running it once. */
  lemma RetainIdempotent(msgs: seq<Message>)
    ensures RetainMessages(RetainMessages(msgs)) == RetainMessages(msgs)
  {
    var once := RetainMessages(msgs);
    forall i | 0 <= i < |msgs| ensures RetainMessages(once)[i] == once[i] {
      if i < |msgs| - KeepRecent {
        StripIdempotent(msgs[i]);
      }
    }
  }

  /** Saving a saved conversation, or a saved project, changes nothing. */
  lemma RetainConversationIdempotent(c: Conversation)
    ensures RetainConversation(RetainConversation(c)) == RetainConversation(c)
  {
    RetainIdempotent(c.messages);
  }

  lemma RetainProjectIdempotent(p: Project)
    ensures RetainProject(RetainProject(p)) == RetainProject(p)
  {
    var once := RetainConversations(p.conversations);
    forall k | 0 <= k < |once| ensures RetainConversation(once[k]) == once[k] {
      RetainConversationIdempotent(p.conversations[k]);
    }
  }

  lemma StripIdempotent(m: Message)
    ensures Strip(Strip(m)) == Strip(m)
  {
    if m.attachmentMeta.Some? {
      var s := Strip(m).attachmentMeta.value;
      assert Strip(Strip(m)).attachmentMeta.value == s;
    }
  }

  /** Saving, appending and saving again is saving once after the append:
      the earlier pass only stripped messages the later one strips too. */
  lemma RetainThenAppend(msgs: seq<Message>, more: seq<Message>)
    ensures RetainMessages(RetainMessages(msgs) + more) == RetainMessages(msgs + more)
  {
    var once := RetainMessages(msgs);
    forall i | 0 <= i < |msgs| && i < |msgs| - KeepRecent
      ensures Strip(Strip(msgs[i])) == Strip(msgs[i])
    {
      StripIdempotent(msgs[i]);
    }
    assert |RetainMessages(once + more)| == |RetainMessages(msgs + more)|;
    forall i | 0 <= i < |msgs| + |more| ensures RetainMessages(once + more)[i] == RetainMessages(msgs + more)[i] {
      if i < |msgs| {
        assert (once + more)[i] == once[i];
        assert (msgs + more)[i] == msgs[i];
      } else {
        assert (once + more)[i] == (msgs + more)[i];
      }
    }
  }

  /** A conversation with at most ten messages is left exactly as it was. */
  lemma ShortConversationUntouched(c: Conversation)
    requires |c.messages| <= KeepRecent
    ensures RetainConversation(c) == c
  {
    assert RetainMessages(c.messages) == c.messages;
  }

  /** The pass never touches message content, so the data URL an image
      attachment put into a user message's content parts is still there,
      however old the message. */
  lemma ContentImageSurvives(msgs: seq<Message>, i: nat, url: Option<string>)
    requires i < |msgs| && msgs[i].content.Parts? && ImageUrlPart(url) in msgs[i].content.parts
    ensures RetainMessages(msgs)[i].content.Parts?
    ensures ImageUrlPart(url) in RetainMessages(msgs)[i].content.parts
  {
  }

  /** Every conversation of a list is found, retained, in the retained list,
      and the retained list brings in no identifier the list did not have. */
  lemma RetainedMembers(cs: seq<Conversation>, id: string)
    ensures forall c :: c in cs ==> RetainConversation(c) in RetainConversations(cs)
    ensures (forall c :: c in cs ==> c.id != id) ==> forall d :: d in RetainConversations(cs) ==> d.id != id
  {
    var r := RetainConversations(cs);
    forall c | c in cs ensures RetainConversation(c) in r {
      var j :| 0 <= j < |cs| && cs[j] == c;
      assert r[j] == RetainConversation(c);
    }
    if forall c :: c in cs ==> c.id != id {
      forall d | d in r ensures d.id != id {
        var j :| 0 <= j < |r| && r[j] == d;
        assert cs[j] in cs;
      }
    }
  }

  /** The pass keeps conversation identities and their order. */
  lemma RetainKeepsIds(cs: seq<Conversation>)
    ensures |RetainConversations(cs)| == |cs|
    ensures forall k :: 0 <= k < |cs| ==> RetainConversations(cs)[k].id == cs[k].id
    ensures forall k :: 0 <= k < |cs| ==> |RetainConversations(cs)[k].messages| == |cs[k].messages|
  {
  }
}

=== FILE: stream.dfy ===
/** Reading the streamed reply: decoded chunks are cut into lines at '\n',
    with the unfinished last piece carried over in a buffer; every complete
    `data: ` line other than the `[DONE]` sentinel is parsed and its delta
    appended to the reply. Afterwards the commit rule decides whether the
    reply becomes an assistant message. */
module Stream {
  import opened Wrappers
  import opened Strings
  import opened Model

  const DataPrefix: string := "data: "
  const DoneSentinel: string := "[DONE]"

  /** Parsing one event payload as JSON and reading
      `choices[0].delta.content`: None when the payload is malformed or has no
      such field. */
  type Parser = string -> Option<string>

  /** What one complete line adds to the reply: text only for a `data: `
      line whose trimmed payload is not the sentinel and parses to exactly
      that text; nothing for any other line. */
  function LineDelta(line: string, parse: Parser): (r: string)
    ensures !StartsWith(line, DataPrefix) ==> r == ""
    ensures r != "" ==>
              && StartsWith(line, DataPrefix)
              && Trim(line[|DataPrefix|..]) != DoneSentinel
              && parse(Trim(line[|DataPrefix|..])) == Some(r)
  {
    if !StartsWith(line, DataPrefix) then ""
    else
      var data := Trim(line[|DataPrefix|..]);
      if data == DoneSentinel then "" else parse(data).GetOr("")
  }

  /** `LineDelta` as a value, for folding over lines. */
  function Step(parse: Parser): string -> string {
    line => LineDelta(line, parse)
  }

  /** The reply built from a sequence of complete lines, in order, where
      `step` is what one line adds. */
  function Deltas(lines: seq<string>, step: string -> string): string
    decreases |lines|
  {
    if |lines| == 0 then ""
    else Deltas(lines[..|lines| - 1], step) + step(lines[|lines| - 1])
  }

  /** All chunks received so far, in order. */
  function Concat(chunks: seq<string>): string
    decreases |chunks|
  {
    if |chunks| == 0 then "" else Concat(chunks[..|chunks| - 1]) + chunks[|chunks| - 1]
  }

  /** The newline-terminated lines of a text, without the unfinished last piece. */
  function CompleteLines(s: string): seq<string> {
    var pieces := Split(s, '\n');
    pieces[..|pieces| - 1]
  }

  /** Reference definition of the reply: the deltas of the complete lines of
      everything received, however it was cut into chunks. */
  function Accumulated(chunks: seq<string>, parse: Parser): string {
    Deltas(CompleteLines(Concat(chunks)), Step(parse))
  }

  /** The read loop of `sendMessage`. The reply depends only on the
      concatenation of the chunks, the buffer ends as the text after the last
      newline, and the lines handled plus the buffer are exactly the text
      received. */
  method ReadStream(chunks: seq<string>, parse: Parser) returns (acc: string, buffer: string)
    ensures acc == Accumulated(chunks, parse)
    ensures buffer == LastPiece(Concat(chunks), '\n')
    ensures Concat(chunks) == JoinTerminated(CompleteLines(Concat(chunks)), '\n') + buffer
  {
    acc := "";
    buffer := "";
    ghost var handled: seq<string> := [];
    var i := 0;
    while i < |chunks|
      invariant 0 <= i <= |chunks|
      invariant Concat(chunks[..i]) == JoinTerminated(handled, '\n') + buffer
      invariant '\n' !in buffer
      invariant forall k :: 0 <= k < |handled| ==> '\n' !in handled[k]
      invariant acc == Deltas(handled, Step(parse))
    {
      var text := buffer + chunks[i];
      ChunkStep(chunks, i, handled, buffer);
      var lines := Split(text, '\n');
      buffer := lines[|lines| - 1];
      acc := HandleLines(acc, lines[..|lines| - 1], parse);
      DeltasAppend(handled, lines[..|lines| - 1], Step(parse));
      handled := handled + lines[..|lines| - 1];
      i := i + 1;
    }
    assert chunks[..i] == chunks;
    ReadStreamEnd(chunks, handled, buffer);
  }

  /** The inner loop over the complete lines of one chunk: each line's
      delta is appended to the reply, in line order. */
  method HandleLines(acc0: string, lines: seq<string>, parse: Parser) returns (acc: string)
    ensures acc == acc0 + Deltas(lines, Step(parse))
  {
    acc := acc0;
    var j := 0;
    while j < |lines|
      invariant 0 <= j <= |lines|
      invariant acc == acc0 + Deltas(lines[..j], Step(parse))
    {
      var line := lines[j];
      acc := HandleLine(acc, line, parse);
      assert Step(parse)(line) == LineDelta(line, parse);
      DeltasSnoc(lines, j, Step(parse));
      ConcatAssoc(acc0, Deltas(lines[..j], Step(parse)), Step(parse)(line));
      j := j + 1;
    }
    assert lines[..j] == lines;
  }

  /** The body of the inner loop for one line: a line that is not a
      `data: ` line or is the sentinel is skipped, and a parsed, non-empty
      delta is appended to the reply. */
  method HandleLine(acc0: string, line: string, parse: Parser) returns (acc: string)
    ensures acc == acc0 + LineDelta(line, parse)
  {
    acc := acc0;
    if StartsWith(line, DataPrefix) {
      var data := Trim(line[|DataPrefix|..]);
      if data != DoneSentinel {
        var delta := parse(data);
        if delta.Some? && delta.value != "" {
          acc := acc + delta.value;
        }
      }
    }
  }

  lemma DeltasSnoc(lines: seq<string>, j: nat, step: string -> string)
    requires j < |lines|
    ensures Deltas(lines[..j + 1], step) == Deltas(lines[..j], step) + step(lines[j])
  {
    assert lines[..j + 1][..j] == lines[..j];
  }

  /** One pass of the outer loop keeps the text received equal to the lines
      handled plus the buffer. */
  lemma ChunkStep(chunks: seq<string>, i: nat, handled: seq<string>, buffer: string)
    requires i < |chunks|
    requires Concat(chunks[..i]) == JoinTerminated(handled, '\n') + buffer
    ensures var lines := Split(buffer + chunks[i], '\n');
            Concat(chunks[..i + 1]) == JoinTerminated(handled + lines[..|lines| - 1], '\n') + lines[|lines| - 1]
  {
    var text := buffer + chunks[i];
    var lines := Split(text, '\n');
    var complete := lines[..|lines| - 1];
    var last := lines[|lines| - 1];
    assert Concat(chunks[..i + 1]) == Concat(chunks[..i]) + chunks[i] by {
      assert chunks[..i + 1][..i] == chunks[..i];
    }
    assert text == JoinTerminated(complete, '\n') + last by {
      SplitJoin(text, '\n');
      JoinLast(lines, '\n');
    }
    JoinTerminatedAppend(handled, complete, '\n');
    calc {
      Concat(chunks[..i + 1]);
      JoinTerminated(handled, '\n') + buffer + chunks[i];
      JoinTerminated(handled, '\n') + text;
      JoinTerminated(handled, '\n') + (JoinTerminated(complete, '\n') + last);
      JoinTerminated(handled + complete, '\n') + last;
    }
  }

  lemma ReadStreamEnd(chunks: seq<string>, handled: seq<string>, buffer: string)
    requires Concat(chunks) == JoinTerminated(handled, '\n') + buffer
    requires '\n' !in buffer
    requires forall k :: 0 <= k < |handled| ==> '\n' !in handled[k]
    ensures CompleteLines(Concat(chunks)) == handled
    ensures LastPiece(Concat(chunks), '\n') == buffer
  {
    SplitTerminated(handled, buffer, '\n');
    assert (handled + [buffer])[..|handled|] == handled;
  }

  /** The reply of a sequence of lines is the replies of its pieces, in order. */
  lemma {:induction false} DeltasAppend(a: seq<string>, b: seq<string>, step: string -> string)
    ensures Deltas(a + b, step) == Deltas(a, step) + Deltas(b, step)
    decreases |b|
  {
    if |b| == 0 {
      assert a + b == a;
    } else {
      var b', last := b[..|b| - 1], b[|b| - 1];
      assert (a + b)[..|a + b| - 1] == a + b';
      assert (a + b)[|a + b| - 1] == last;
      DeltasAppend(a, b', step);
      assert Deltas(a + b, step) == Deltas(a + b', step) + step(last);
      assert Deltas(b, step) == Deltas(b', step) + step(last);
      ConcatAssoc(Deltas(a, step), Deltas(b', step), step(last));
    }
  }

  /** A final piece with no newline after it is never handled: whatever it
      holds, the reply is that of the complete lines before it. */
  lemma UnfinishedLineIgnored(lines: seq<string>, tail: string, parse: Parser)
    requires forall k :: 0 <= k < |lines| ==> '\n' !in lines[k]
    requires '\n' !in tail
    ensures Deltas(CompleteLines(JoinTerminated(lines, '\n') + tail), Step(parse)) == Deltas(lines, Step(parse))
  {
    SplitTerminated(lines, tail, '\n');
    assert (lines + [tail])[..|lines|] == lines;
  }

  /** Two complete lines contribute their deltas in order. */
  lemma DeltasPair(x: string, y: string, parse: Parser)
    ensures Deltas([x, y], Step(parse)) == LineDelta(x, parse) + LineDelta(y, parse)
  {
    var pair := [x, y];
    assert pair[..1] == [x];
    assert Deltas([x], Step(parse)) == LineDelta(x, parse) by {
      assert [x][..0] == [];
    }
    assert Deltas(pair, Step(parse)) == Deltas([x], Step(parse)) + LineDelta(y, parse);
  }

  /** A payload with no whitespace at either end, which trimming leaves alone. */
  predicate Trimmed(p: string) {
    p == "" || (!IsJsWhitespace(p[0]) && !IsJsWhitespace(p[|p| - 1]))
  }

  /** Trimming leaves a trimmed payload alone. */
  lemma TrimmedUnchanged(p: string)
    requires Trimmed(p)
    ensures Trim(p) == p
  {
    assert TrimStart(p) == p;
    assert TrimEnd(p) == p;
  }

  /** A `data: ` line contributes nothing when its trimmed payload is the
      sentinel, and otherwise the delta parsed from the trimmed payload, or
      nothing when that does not parse. */
  lemma DataLineDelta(payload: string, parse: Parser)
    ensures var p := Trim(payload);
            LineDelta(DataPrefix + payload, parse) == if p == DoneSentinel then "" else parse(p).GetOr("")
  {
    var line := DataPrefix + payload;
    assert line[..|DataPrefix|] == DataPrefix;
    assert line[|DataPrefix|..] == payload;
  }

  /** A line ending in a carriage return, as CRLF framing leaves it after the
      split at '\n', adds the same as the line without it. */
  lemma CarriageReturnIgnored(payload: string, parse: Parser)
    requires Trimmed(payload)
    ensures LineDelta(DataPrefix + payload + "\r", parse) == LineDelta(DataPrefix + payload, parse)
  {
    var p := payload + "\r";
    assert DataPrefix + payload + "\r" == DataPrefix + p;
    assert Trim(p) == payload by {
      if payload == "" {
        assert TrimStart(p) == TrimStart(p[1..]);
        assert p[1..] == "";
      } else {
        assert TrimStart(p) == p;
        assert p[..|p| - 1] == payload;
        assert TrimEnd(p) == TrimEnd(payload);
        TrimmedUnchanged(payload);
      }
    }
    TrimmedUnchanged(payload);
    DataLineDelta(p, parse);
    DataLineDelta(payload, parse);
  }

  /** The sentinel line and the blank line after it contribute nothing. */
  lemma SentinelLineDelta(parse: Parser)
    ensures LineDelta(DataPrefix + DoneSentinel, parse) == ""
    ensures LineDelta("", parse) == ""
  {
    assert Trimmed(DoneSentinel) by {
      assert DoneSentinel[0] == '[' && DoneSentinel[|DoneSentinel| - 1] == ']';
    }
    TrimmedUnchanged(DoneSentinel);
    DataLineDelta(DoneSentinel, parse);
  }

  /** The sentinel frame the relay appends after the upstream stream ends
      (`data: [DONE]` and a blank line) adds nothing to the reply. */
  lemma SentinelAddsNothing(lines: seq<string>, parse: Parser)
    ensures Deltas(lines + [DataPrefix + DoneSentinel, ""], Step(parse)) == Deltas(lines, Step(parse))
  {
    var frame := [DataPrefix + DoneSentinel, ""];
    SentinelLineDelta(parse);
    DeltasAppend(lines, frame, Step(parse));
    DeltasPair(DataPrefix + DoneSentinel, "", parse);
  }

  /** Cancellation after two complete event lines and part of a third: the
      reply holds exactly the first two deltas, whatever the unfinished line
      says. */
  lemma CancelledMidLine(p1: string, p2: string, partial: string, parse: Parser)
    requires '\n' !in p1 && '\n' !in p2 && '\n' !in partial
    requires Trimmed(p1) && Trimmed(p2) && p1 != DoneSentinel && p2 != DoneSentinel
    requires parse(p1).Some? && parse(p2).Some?
    ensures Deltas(CompleteLines(JoinTerminated([DataPrefix + p1, DataPrefix + p2], '\n') + partial), Step(parse))
            == parse(p1).value + parse(p2).value
  {
    var lines := [DataPrefix + p1, DataPrefix + p2];
    assert '\n' !in DataPrefix;
    assert forall k :: 0 <= k < |lines| ==> '\n' !in lines[k];
    UnfinishedLineIgnored(lines, partial, parse);
    TrimmedUnchanged(p1);
    TrimmedUnchanged(p2);
    DataLineDelta(p1, parse);
    DataLineDelta(p2, parse);
    DeltasPair(DataPrefix + p1, DataPrefix + p2, parse);
  }

  // ----- the commit rule -----

  /** How the read loop ended: the stream closed normally, the user stopped
      it, or the network failed. */
  datatype StreamEnd = Finished | Aborted | Failed

  /** The HTTP response to the chat request: a non-success status with its
      error body, or a body streamed until `end`. */
  datatype Response = NotOk(status: int, body: string) | Streamed(chunks: seq<string>, end: StreamEnd)

  /** The reply committed as an assistant message, if any. */
  function CommittedReply(resp: Response, parse: Parser): (r: Option<string>)
    ensures resp.NotOk? ==> r == None
    ensures resp.Streamed? && resp.end == Finished ==> r == Some(Accumulated(resp.chunks, parse))
    ensures resp.Streamed? && resp.end == Aborted ==>
              (r.Some? <==> Accumulated(resp.chunks, parse) != "") && (r.Some? ==> r.value == Accumulated(resp.chunks, parse))
    ensures resp.Streamed? && resp.end == Failed ==> r == None
    ensures r.Some? ==> resp.Streamed? && r.value == Accumulated(resp.chunks, parse)
  {
    match resp
    case NotOk(_, _) => None
    case Streamed(chunks, end) =>
      var full := Accumulated(chunks, parse);
      match end
      case Finished => Some(full)
      case Aborted => if full != "" then Some(full) else None
      case Failed => None
  }

  /** The conversation's messages after the request ends: one assistant
      message with the reply is appended exactly when a reply is committed. */
  function Commit(msgs: seq<Message>, resp: Response, parse: Parser): (r: seq<Message>)
    ensures |r| == |msgs| + (if CommittedReply(resp, parse).Some? then 1 else 0)
    ensures r[..|msgs|] == msgs
    ensures |r| > |msgs| ==> r[|msgs|] == AssistantMessage(CommittedReply(resp, parse).value)
  {
    match CommittedReply(resp, parse)
    case Some(text) => msgs + [AssistantMessage(text)]
    case None => msgs
  }

  /** A normal end commits even an empty reply; a cancelled empty reply is dropped. */
  lemma EmptyReplies(msgs: seq<Message>, parse: Parser)
    ensures Commit(msgs, Streamed([], Finished), parse) == msgs + [AssistantMessage("")]
    ensures Commit(msgs, Streamed([], Aborted), parse) == msgs
  {
    assert Accumulated([], parse) == "" by {
      assert Concat([]) == "";
      assert CompleteLines("") == [];
    }
  }
}

=== FILE: strings.dfy ===
/** String operations the client relies on, with the semantics of their JavaScript
    counterparts: `String.prototype.split` on a one-character separator,
    `Array.prototype.join`, `startsWith`, `trim` and an ASCII `toLowerCase`. */
module Strings {

  /** `s.startsWith(p)` */
  predicate StartsWith(s: string, p: string) {
    |p| <= |s| && s[..|p|] == p
  }

  /** The character `toLowerCase` yields for ASCII input; every other character is kept. */
  function LowerChar(ch: char): char {
    if 'A' <= ch <= 'Z' then (ch as int + 32) as char else ch
  }

  function AsciiLower(s: string): (r: string)
    ensures |r| == |s|
    ensures forall i :: 0 <= i < |s| ==> r[i] == LowerChar(s[i])
  {
    seq(|s|, i requires 0 <= i < |s| => LowerChar(s[i]))
  }

  /** `s.split(c)`: the maximal separator-free pieces of `s`, in order. Like
      JavaScript, the empty string splits into one empty piece and a
      separator at either end yields an empty piece there. */
  function Split(s: string, c: char): (r: seq<string>)
    ensures |r| >= 1
    ensures forall i :: 0 <= i < |r| ==> c !in r[i]
    decreases |s|
  {
    if |s| == 0 then [""]
    else
      var rest := Split(s[1..], c);
      if s[0] == c then [""] + rest
      else [[s[0]] + rest[0]] + rest[1..]
  }

  /** `xs.join(sep)` */
  function Join(xs: seq<string>, sep: string): string
    decreases |xs|
  {
    if |xs| == 0 then ""
    else if |xs| == 1 then xs[0]
    else xs[0] + sep + Join(xs[1..], sep)
  }

  /** The last piece of a split: `s.split(c).pop()`. */
  function LastPiece(s: string, c: char): (r: string)
    ensures c !in r
    ensures |r| <= |s| && r == s[|s| - |r|..]
    ensures |r| == |s| || s[|s| - |r| - 1] == c
  {
    var xs := Split(s, c);
    SplitJoin(s, c);
    JoinLast(xs, c);
    if |xs| > 1 then JoinTerminatedEnds(xs[..|xs| - 1], c); xs[|xs| - 1] else xs[|xs| - 1]
  }

  /** The whitespace and line terminators `String.prototype.trim` removes. */
  predicate IsJsWhitespace(ch: char) {
    || ch == '\t' || ch == '\n' || ch == '\U{000B}' || ch == '\U{000C}' || ch == '\r'
    || ch == ' ' || ch == '\U{00A0}' || ch == '\U{1680}'
    || ('\U{2000}' <= ch <= '\U{200A}')
    || ch == '\U{2028}' || ch == '\U{2029}' || ch == '\U{202F}' || ch == '\U{205F}'
    || ch == '\U{3000}' || ch == '\U{FEFF}'
  }

  function TrimStart(s: string): (r: string)
    ensures |r| <= |s| && r == s[|s| - |r|..]
    ensures r == "" || !IsJsWhitespace(r[0])
    decreases |s|
  {
    if |s| > 0 && IsJsWhitespace(s[0]) then TrimStart(s[1..]) else s
  }

  /** Everything `TrimStart` drops is whitespace. */
  lemma {:induction false} TrimStartDropsWhitespace(s: string)
    ensures forall i :: 0 <= i < |s| - |TrimStart(s)| ==> IsJsWhitespace(s[i])
    decreases |s|
  {
    if |s| > 0 && IsJsWhitespace(s[0]) {
      TrimStartDropsWhitespace(s[1..]);
      forall i | 0 < i < |s| - |TrimStart(s)| ensures IsJsWhitespace(s[i]) {
        assert s[i] == s[1..][i - 1];
      }
    }
  }

  function TrimEnd(s: string): (r: string)
    ensures |r| <= |s| && r == s[..|r|]
    ensures r == "" || !IsJsWhitespace(r[|r| - 1])
    decreases |s|
  {
    if |s| > 0 && IsJsWhitespace(s[|s| - 1]) then TrimEnd(s[..|s| - 1]) else s
  }

  /** Everything `TrimEnd` drops is whitespace. */
  lemma {:induction false} TrimEndDropsWhitespace(s: string)
    ensures forall i :: |TrimEnd(s)| <= i < |s| ==> IsJsWhitespace(s[i])
    decreases |s|
  {
    if |s| > 0 && IsJsWhitespace(s[|s| - 1]) {
      TrimEndDropsWhitespace(s[..|s| - 1]);
      forall i | |TrimEnd(s)| <= i < |s| - 1 ensures IsJsWhitespace(s[i]) {
        assert s[i] == s[..|s| - 1][i];
      }
    }
  }

  /** `s.trim()` */
  function Trim(s: string): string {
    TrimEnd(TrimStart(s))
  }

  /** Trimming keeps a contiguous middle slice of `s`: it starts where
      `TrimStart` stopped dropping. */
  lemma TrimSlice(s: string)
    ensures var i := |s| - |TrimStart(s)|;
            0 <= i <= i + |Trim(s)| <= |s| && Trim(s) == s[i..i + |Trim(s)|]
  {
    var a := TrimStart(s);
    var b := TrimEnd(a);
    var i := |s| - |a|;
    assert Trim(s) == b;
    assert b == s[i..i + |b|] by {
      assert a == s[i..];
      assert b == a[..|b|];
      assert s[i..][..|b|] == s[i..i + |b|];
    }
  }

  /** Everything trimming drops, on either side, is whitespace. */
  lemma TrimDropsWhitespace(s: string)
    ensures var i := |s| - |TrimStart(s)|;
            && (forall k :: 0 <= k < i ==> IsJsWhitespace(s[k]))
            && (forall k :: i + |Trim(s)| <= k < |s| ==> IsJsWhitespace(s[k]))
  {
    var a := TrimStart(s);
    var i := |s| - |a|;
    TrimStartDropsWhitespace(s);
    TrimEndDropsWhitespace(a);
    forall k | i + |Trim(s)| <= k < |s| ensures IsJsWhitespace(s[k]) {
      assert s[k] == a[k - i];
    }
  }

  /** What trimming leaves neither starts nor ends with whitespace. */
  lemma TrimmedEnds(s: string)
    ensures Trim(s) == "" || (!IsJsWhitespace(Trim(s)[0]) && !IsJsWhitespace(Trim(s)[|Trim(s)| - 1]))
  {
    var a := TrimStart(s);
    var b := TrimEnd(a);
    assert b != "" ==> b[0] == a[0];
  }

  // ----- split / join round trips -----

  /** Splitting around a separator splits each side independently. */
  lemma {:induction false} SplitAround(a: string, b: string, c: char)
    ensures Split(a + [c] + b, c) == Split(a, c) + Split(b, c)
    decreases |a|
  {
    if |a| == 0 {
      assert a + [c] + b == [c] + b;
      SplitCons(c, b, c);
    } else {
      var t := a[1..];
      assert a == [a[0]] + t;
      assert a + [c] + b == [a[0]] + (t + [c] + b);
      SplitAround(t, b, c);
      SplitAroundStep(a[0], t, b, c);
    }
  }

  /** The inductive step of `SplitAround`: putting one more character in
      front of the left side. */
  lemma SplitAroundStep(ch: char, t: string, b: string, c: char)
    requires Split(t + [c] + b, c) == Split(t, c) + Split(b, c)
    ensures Split([ch] + (t + [c] + b), c) == Split([ch] + t, c) + Split(b, c)
  {
    SplitCons(ch, t + [c] + b, c);
    SplitCons(ch, t, c);
    ConsPieces(ch, c, Split(t, c), Split(b, c));
  }

  /** The sequence algebra behind `SplitAroundStep`: a character put in
      front of the pieces `left + right` lands in the first piece of `left`. */
  lemma ConsPieces(ch: char, c: char, left: seq<string>, right: seq<string>)
    requires |left| >= 1
    ensures (if ch == c then [""] + (left + right) else [[ch] + (left + right)[0]] + (left + right)[1..])
         == (if ch == c then [""] + left else [[ch] + left[0]] + left[1..]) + right
  {
    if ch != c {
      assert (left + right)[1..] == left[1..] + right;
    }
  }

  /** One step of `Split`, on a string given as its first character and the rest. */
  lemma SplitCons(ch: char, t: string, c: char)
    ensures Split([ch] + t, c) ==
              if ch == c then [""] + Split(t, c) else [[ch] + Split(t, c)[0]] + Split(t, c)[1..]
  {
    assert ([ch] + t)[1..] == t;
  }

  /** A separator-free string is a single piece. */
  lemma {:induction false} SplitNoSeparator(s: string, c: char)
    requires c !in s
    ensures Split(s, c) == [s]
    decreases |s|
  {
    if |s| > 0 {
      assert c !in s[1..] by {
        forall k | 0 <= k < |s[1..]| ensures s[1..][k] != c {
          assert s[1..][k] == s[k + 1];
        }
      }
      SplitNoSeparator(s[1..], c);
      assert [s[0]] + s[1..] == s;
    }
  }

  /** Joining the pieces of a split restores the string. */
  lemma {:induction false} SplitJoin(s: string, c: char)
    ensures Join(Split(s, c), [c]) == s
    decreases |s|
  {
    if |s| > 0 {
      var rest := Split(s[1..], c);
      SplitJoin(s[1..], c);
      if s[0] == c {
        assert Split(s, c) == [""] + rest;
        assert ([""] + rest)[1..] == rest;
        assert [s[0]] + s[1..] == s;
      } else {
        JoinConsChar(rest, s[0], c);
        assert [s[0]] + s[1..] == s;
      }
    }
  }

  lemma {:induction false} JoinConsChar(xs: seq<string>, a: char, c: char)
    requires |xs| >= 1
    ensures Join([[a] + xs[0]] + xs[1..], [c]) == [a] + Join(xs, [c])
  {
    var ys := [[a] + xs[0]] + xs[1..];
    assert |ys| == |xs| && ys[0] == [a] + xs[0] && ys[1..] == xs[1..];
    if |xs| > 1 {
      var j := Join(xs[1..], [c]);
      assert Join(ys, [c]) == ([a] + xs[0]) + [c] + j;
      assert Join(xs, [c]) == xs[0] + [c] + j;
      assert ([a] + xs[0]) + [c] + j == [a] + (xs[0] + [c] + j);
    }
  }

  /** Splitting a join of separator-free pieces gives the pieces back. */
  lemma {:induction false} JoinSplit(xs: seq<string>, c: char)
    requires |xs| >= 1
    requires forall i :: 0 <= i < |xs| ==> c !in xs[i]
    ensures Split(Join(xs, [c]), c) == xs
    decreases |xs|
  {
    if |xs| == 1 {
      SplitNoSeparator(xs[0], c);
    } else {
      JoinSplit(xs[1..], c);
      SplitAround(xs[0], Join(xs[1..], [c]), c);
      SplitNoSeparator(xs[0], c);
      assert [xs[0]] + xs[1..] == xs;
    }
  }

  /** A join with at least two pieces ends with a separator and the last piece. */
  lemma {:induction false} JoinLast(xs: seq<string>, c: char)
    requires |xs| >= 1
    ensures Join(xs, [c]) == JoinTerminated(xs[..|xs| - 1], c) + xs[|xs| - 1]
    decreases |xs|
  {
    if |xs| > 1 {
      JoinLast(xs[1..], c);
      assert xs[1..][..|xs[1..]| - 1] == xs[..|xs| - 1][1..];
    }
  }

  /** Every piece followed by the separator `c`: the text a sequence of complete lines came from. */
  function JoinTerminated(ls: seq<string>, c: char): string
    decreases |ls|
  {
    if |ls| == 0 then "" else ls[0] + [c] + JoinTerminated(ls[1..], c)
  }

  lemma {:induction false} JoinTerminatedAppend(a: seq<string>, b: seq<string>, c: char)
    ensures JoinTerminated(a + b, c) == JoinTerminated(a, c) + JoinTerminated(b, c)
    decreases |a|
  {
    if |a| == 0 {
      assert a + b == b;
    } else {
      JoinTerminatedAppend(a[1..], b, c);
      assert (a + b)[1..] == a[1..] + b;
      assert JoinTerminated(a + b, c) == a[0] + [c] + (JoinTerminated(a[1..], c) + JoinTerminated(b, c));
    }
  }

  /** A non-empty terminated join ends with the separator. */
  lemma {:induction false} JoinTerminatedEnds(ls: seq<string>, c: char)
    requires |ls| > 0
    ensures |JoinTerminated(ls, c)| > 0 && JoinTerminated(ls, c)[|JoinTerminated(ls, c)| - 1] == c
    decreases |ls|
  {
    if |ls| > 1 {
      JoinTerminatedEnds(ls[1..], c);
    }
  }

  /** A text made of complete newline-free lines and a newline-free tail
      splits into exactly those lines followed by the tail. */
  lemma {:induction false} SplitTerminated(ls: seq<string>, tail: string, c: char)
    requires forall i :: 0 <= i < |ls| ==> c !in ls[i]
    requires c !in tail
    ensures Split(JoinTerminated(ls, c) + tail, c) == ls + [tail]
    decreases |ls|
  {
    if |ls| == 0 {
      assert JoinTerminated(ls, c) + tail == tail;
      SplitNoSeparator(tail, c);
    } else {
      SplitTerminated(ls[1..], tail, c);
      var rest := JoinTerminated(ls[1..], c) + tail;
      assert JoinTerminated(ls, c) + tail == ls[0] + [c] + rest;
      SplitAround(ls[0], rest, c);
      SplitNoSeparator(ls[0], c);
      assert [ls[0]] + (ls[1..] + [tail]) == ls + [tail];
    }
  }

  // ----- lower-casing commutes with splitting on a non-letter -----

  lemma {:induction false} SplitLower(s: string, c: char)
    requires !('A' <= c <= 'Z') && !('a' <= c <= 'z')
    ensures |Split(AsciiLower(s), c)| == |Split(s, c)|
    ensures forall i :: 0 <= i < |Split(s, c)| ==> Split(AsciiLower(s), c)[i] == AsciiLower(Split(s, c)[i])
    decreases |s|
  {
    if |s| > 0 {
      var t := s[1..];
      assert s == [s[0]] + t;
      LowerCons(s[0], t);
      SplitCons(s[0], t, c);
      SplitCons(LowerChar(s[0]), AsciiLower(t), c);
      SplitLower(t, c);
      LowerPiecesCons(s[0], c, Split(AsciiLower(t), c), Split(t, c));
    }
  }

  /** The inductive step of `SplitLower`, as sequence algebra on the pieces. */
  lemma LowerPiecesCons(ch: char, c: char, lower: seq<string>, pieces: seq<string>)
    requires !('A' <= c <= 'Z') && !('a' <= c <= 'z')
    requires |pieces| >= 1 && |lower| == |pieces|
    requires forall i :: 0 <= i < |pieces| ==> lower[i] == AsciiLower(pieces[i])
    ensures var l := if LowerChar(ch) == c then [""] + lower else [[LowerChar(ch)] + lower[0]] + lower[1..];
            var p := if ch == c then [""] + pieces else [[ch] + pieces[0]] + pieces[1..];
            |l| == |p| && forall i :: 0 <= i < |p| ==> l[i] == AsciiLower(p[i])
  {
    assert LowerChar(ch) == c <==> ch == c;
    if ch == c {
      assert AsciiLower("") == "";
    } else {
      LowerCons(ch, pieces[0]);
    }
  }

  lemma LowerCons(ch: char, t: string)
    ensures AsciiLower([ch] + t) == [LowerChar(ch)] + AsciiLower(t)
  {
    var r := [LowerChar(ch)] + AsciiLower(t);
    forall i | 0 < i < |r| ensures r[i] == LowerChar(([ch] + t)[i]) {
      assert r[i] == AsciiLower(t)[i - 1];
    }
  }

  /** The last piece of a lower-cased string is the lower-cased last piece. */
  lemma LastPieceLower(s: string, c: char)
    requires !('A' <= c <= 'Z') && !('a' <= c <= 'z')
    ensures LastPiece(AsciiLower(s), c) == AsciiLower(LastPiece(s, c))
  {
    SplitLower(s, c);
  }

  /** Only the text after the last separator decides the last piece. */
  lemma LastPieceAfterSeparator(prefix: string, tail: string, c: char)
    requires c !in tail
    ensures LastPiece(prefix + [c] + tail, c) == tail
  {
    SplitAround(prefix, tail, c);
    SplitNoSeparator(tail, c);
  }
}

=== FILE: wrappers.dfy ===
/** The optional-value datatype used for JavaScript's `null` / `undefined` slots. */
module Wrappers {

  datatype Option<+T> = None | Some(value: T) {

    /** Returns the value held in Some, or `default` when None. */
    function GetOr(default: T): T {
      match this
      case Some(v) => v
      case None => default
    }
  }

  /** JavaScript truthiness of a nullable string: null and "" are both falsy. */
  predicate Truthy(o: Option<string>) {
    o.Some? && o.value != ""
  }
}
